=== FILE: README.md ===
# Hebrew call center — a Dafny model of the message pipeline

The Hebrew call center simulates a customer-support call about cancelling a TV
subscription. Every line of a fixed six-turn script goes through a pipeline.
First nikud (Hebrew vowel marks) is added. The vocalised text is then turned
into speech, and the audio is transcribed back to text. Each step is logged to
a transcript, and a call summary closes the session. Failures are logged to a
separate system log.

The project models that core:

- `wrappers.dfy`: `Option`, and the `Outcome` of a call that may raise a
  Python exception.
- `text.dfy`: the string facts the core relies on. It covers `str.strip`,
  `str(int)` with its inverse parser, `repr` of a string, and `'='*n` rules.
  It also covers the split of a text file into lines.
- `json.dfy`: `json.dumps(..., indent=2, ensure_ascii=False)` for the flat
  dictionaries the system log records. It includes the string escaping and its
  decoder.
- `agent_config.dfy`: the `agents.yaml` sanitising in `crew.py` and
  `_agent_config_without_tools`.
- `transcript.dfy`: the four logging operations of
  `tools/transcript_tool.py`. The two log files are a `LogStore` value. A
  `Faults` value says which file cannot be opened, and with which message.
- `nikud.dfy`, `tts.dfy`, `stt.dfy`: the three stage tools. The external
  engines are function-valued parameters that may raise: Phonikud, gTTS and
  pydub, the `wave` writer, and Whisper. So are the file system probes.
  `tts.dfy` also builds the one-second silent WAV of `_fallback_tts` byte by
  byte.
- `pipeline.dfy`: `process_hebrew_message`. The three stages are parameters
  (`Stages`), and `Wired` plugs in the stage models.
- `session.dfy`: `run_conversation_simulation` and the crew constructor.

The clock, UUIDs and the presence of FFmpeg are parameters. So is the
`MAX_CONVERSATION_TURNS` value.

One edge of the transcription fallback is easy to miss. A blank transcription
is replaced by `nikud_text or text`, and that expression tests emptiness, not
blankness. So a nikud stage that answers with whitespace still leaves a blank
transcribed text. `Pipeline.WhitespaceNikudIsKept` exhibits the case.

## Model

| member | source | states |
|---|---|---|
| AgentConfig.WithoutTools | src/hebrew_call_center/crew.py:58-61 | a mapping entry loses exactly its `tools` key, keeping every other key and value; a non-mapping entry is returned unchanged |
| AgentConfig.Sanitize | src/hebrew_call_center/crew.py:57-61 | the sanitised configuration has the same agents, each with its entry stripped of `tools` |
| AgentConfig.SanitizeRemovesOnlyTools | src/hebrew_call_center/crew.py:57-61 | after sanitising, no agent mapping names tools, other keys keep their values, and non-mapping entries are untouched |
| AgentConfig.SanitizeIdempotent | src/hebrew_call_center/crew.py:57-61 | sanitising twice is sanitising once |
| AgentConfig.SanitizeLoaded | src/hebrew_call_center/crew.py:53-65 | a loaded mapping is sanitised; an empty, unreadable or non-mapping document gives `{}` |
| AgentConfig.PairOf | src/hebrew_call_center/crew.py:81 | an element of a sequence given to `dict()` is a key-value pair iff it is a two-element list with a string key or a two-character string; any other element raises `TypeError` or `ValueError`, except a pair the model cannot represent (a number, boolean or null key, or a two-key mapping), which gives `None` |
| AgentConfig.DictOf | src/hebrew_call_center/crew.py:81 | `dict(v)` copies a mapping, gives `{}` for an empty string or list, raises `ValueError` for a longer string and `TypeError` for a number, boolean or null |
| AgentConfig.AddStringPairs | src/hebrew_call_center/crew.py:81 | folding string pairs into a dictionary adds exactly their keys; the last pair with a key gives its value, and earlier keys not named keep theirs |
| AgentConfig.DictOfPairs | src/hebrew_call_center/crew.py:81 | `dict()` of a list of string pairs succeeds, has exactly the pairs' keys, and each key maps to the value of its last pair |
| AgentConfig.AgentConfigWithoutTools | src/hebrew_call_center/crew.py:79-84 | a missing agent raises `KeyError` whose message is `repr` of the key; an entry `dict()` rejects raises the same exception; otherwise the copy has exactly the keys of `dict(entry)` other than `tools`, with the same values |
| AgentConfig.WithoutToolsOfOtherEntries | src/hebrew_call_center/crew.py:81-84 | an empty list or empty string gives `{}`; a list of pairs gives its pairs without `tools`; a number raises `TypeError` |
| Text.Repr | src/hebrew_call_center/crew.py:81 | `repr` of a string is wrapped in the same quote at both ends, chosen as Python chooses it |
| Text.ReprPlain | src/hebrew_call_center/crew.py:81 | a string of printable characters without quotes or backslashes is shown between single quotes, unchanged |
| Text.ReprApostrophe | src/hebrew_call_center/crew.py:81 | such a string with an apostrophe and no double quote is shown between double quotes, unchanged |
| Text.ReprBothQuotes | src/hebrew_call_center/crew.py:81 | a string holding both quote characters, and otherwise only characters shown as themselves, is wrapped in single quotes with a backslash before each single quote and nothing else changed |
| AgentConfig.WithoutToolsAfterSanitize | src/hebrew_call_center/crew.py:79-84 | on the sanitised configuration, the per-agent copy is exactly the sanitised entry |
| Nikud.ModelPath | src/hebrew_call_center/tools/nikud_tool.py:39 | the model path is `PHONIKUD_MODEL_PATH` when set, else `./phonikud-1.0.int8.onnx` |
| Nikud.Normalize | src/hebrew_call_center/tools/nikud_tool.py:29-36 | the normaliser is the identity whether or not the optional import succeeds |
| Nikud.AddNikud | src/hebrew_call_center/tools/nikud_tool.py:16-62 | the original text when the import raises `ImportError` or the model file is missing; the vocalised text when the model answers; `[NIKUD ERROR] ` plus the message when the import or the model raises anything else |
| Nikud.AddNikudDegrades | src/hebrew_call_center/tools/nikud_tool.py:26-62 | the stage never raises: an exception other than `ImportError` becomes the marker with its message, and otherwise the result is the text unchanged or the model's answer |
| Nikud.AddNikudResultKinds | src/hebrew_call_center/tools/nikud_tool.py:26-62 | every result is the text itself, the model's answer for it, or the marker plus the message of an exception other than `ImportError` raised by the import or the model |
| Nikud.AddNikudMarkerIffEscaped | src/hebrew_call_center/tools/nikud_tool.py:57-62 | when neither the text nor the model's answer starts with the marker, the result starts with `[NIKUD ERROR] ` iff the import or the model raised something other than `ImportError` |
| Nikud.AddNikudBatch | src/hebrew_call_center/tools/nikud_tool.py:75-79 | one result per input, in order, each the single-text result |
| Tts.UnpackPackSamples | src/hebrew_call_center/tools/tts_tool.py:77-78 | decoding the little-endian 16-bit frames gives back every sample |
| Tts.PackSilence | src/hebrew_call_center/tools/tts_tool.py:77-78 | n silent samples pack to 2n zero bytes |
| Tts.SilentWavIsOneSecondOfSilence | src/hebrew_call_center/tools/tts_tool.py:66-79 | the fallback audio is mono, 16-bit, 16000 Hz, exactly one second long, and every frame byte and decoded sample is zero |
| Tts.FallbackTts | src/hebrew_call_center/tools/tts_tool.py:58-84 | the fallback path when the WAV is written, else `[FALLBACK TTS ERROR] ` plus the exception's message |
| Tts.Convert | src/hebrew_call_center/tools/tts_tool.py:23-56 | the WAV path when synthesis and conversion succeed, the MP3 path when only synthesis does, and the fallback's result when synthesis raises |
| Tts.ConvertResultTellsOutcome | src/hebrew_call_center/tools/tts_tool.py:41-56 | the result is the WAV path iff synthesis and conversion both succeed, and the MP3 path iff only synthesis succeeds |
| Tts.PathsDistinct | src/hebrew_call_center/tools/tts_tool.py:29-72 | the WAV, MP3 and fallback paths of one call and every fallback error marker are pairwise distinct |
| Tts.NumberedPaths | src/hebrew_call_center/tools/tts_tool.py:29-31 | a non-zero step number names the files `output/audio_step_<n>.mp3`, `.wav` and `_fallback.wav` |
| Tts.StepPathsDistinct | src/hebrew_call_center/tools/tts_tool.py:29-31 | two different non-zero steps never share an audio file, whatever identifiers were drawn |
| Tts.ConvertMany | src/hebrew_call_center/tools/tts_tool.py:97-101 | one path per (text, step) pair, in order, each the single-call result |
| Stt.Transcribe | src/hebrew_call_center/tools/stt_tool.py:25-62 | the empty string when the file is missing, the model is not loaded, FFmpeg is absent, the call raises or no text comes back; else the stripped text; never surrounded by whitespace |
| Stt.TranscribeIsStripped | src/hebrew_call_center/tools/stt_tool.py:55 | the transcription is its own strip, and it is blank iff it is empty |
| Stt.TranscribeMany | src/hebrew_call_center/tools/stt_tool.py:113-117 | one transcription per path, in order |
| Stt.TranscribeWithConfidence | src/hebrew_call_center/tools/stt_tool.py:69-100 | the file-missing and model-missing errors; the exception's message, or `'text'` for a result without text; else the stripped text, the language defaulting to `he`, and the segment count defaulting to 0 |
| Stt.MissingTextIsKeyRepr | src/hebrew_call_center/tools/stt_tool.py:92 | the message of the `KeyError` for a result without text is `repr` of the key `text` |
| Stt.ConfidenceItems | src/hebrew_call_center/tools/stt_tool.py:74-100 | a transcription is exactly `text`, `language`, `segments` and `success: True` with its own values; an error is exactly its `error` item, followed by `success: False` iff it came from an exception; only a transcription carries `True` |
| Stt.ConfidenceAgreesWithTranscribe | src/hebrew_call_center/tools/stt_tool.py:25-100 | when both Whisper calls see the same text, every detailed failure is an empty plain transcription, and with FFmpeg a detailed success carries exactly the plain transcription |
| Text.Strip | src/hebrew_call_center/tools/stt_tool.py:55 | the result is a contiguous slice with only whitespace cut on either side, has no whitespace at either end, and is empty iff the input is blank |
| Text.StripIdempotent | src/hebrew_call_center/tools/stt_tool.py:55 | stripping twice is stripping once |
| Text.ParseIntToString | src/hebrew_call_center/tools/transcript_tool.py:54 | the decimal rendering of an integer parses back to it |
| Text.IntToStringInjective | src/hebrew_call_center/tools/tts_tool.py:30 | different integers render differently |
| Text.SplitLinesOfLines | src/hebrew_call_center/tools/transcript_tool.py:145-149 | splitting the text of newline-free lines gives back those lines |
| Json.Escape | src/hebrew_call_center/tools/transcript_tool.py:148 | an escaped string literal never contains a raw newline |
| Json.UnescapeEscape | src/hebrew_call_center/tools/transcript_tool.py:148 | decoding an escaped string gives back the original |
| Json.Dumps | src/hebrew_call_center/tools/transcript_tool.py:148 | an empty dictionary is `{}`; otherwise the text is exactly the lines `{`, one indented item per key in order, and `}` |
| Transcript.InitializeSession | src/hebrew_call_center/tools/transcript_tool.py:162-187 | each file that opens is replaced by its title, start time and rule; the message is the success text iff both files open, else `[INIT ERROR] Error initializing call session: ` plus the message of the first open that failed, the transcript's before the call log's |
| Transcript.InitializeForgetsHistory | src/hebrew_call_center/tools/transcript_tool.py:169-179 | after a session start, the logs do not depend on what they held before |
| Transcript.InitializeIdempotent | src/hebrew_call_center/tools/transcript_tool.py:169-179 | two session starts in a row leave what the second alone leaves |
| Transcript.InitializeReadsBack | src/hebrew_call_center/tools/transcript_tool.py:170-179 | read line by line, a fresh log holds exactly its header lines |
| Transcript.LogConversationStep | src/hebrew_call_center/tools/transcript_tool.py:36-74 | the step block, stamped with the given timestamp or else the current time, is appended to the transcript; the call log is untouched; an open failure changes nothing and returns the `[TRANSCRIPT ERROR]` marker |
| Transcript.ReadStepLines | src/hebrew_call_center/tools/transcript_tool.py:53-62 | every field of a step and its timestamp can be recovered from the block's lines |
| Transcript.StepReadsBack | src/hebrew_call_center/tools/transcript_tool.py:53-66 | the appended text, read back line by line, gives back the step and its timestamp |
| Transcript.CreateCallSummary | src/hebrew_call_center/tools/transcript_tool.py:87-130 | the summary block is appended to the transcript; the call log is untouched; an open failure changes nothing and returns the `[SUMMARY ERROR]` marker |
| Transcript.ReadSummaryLines | src/hebrew_call_center/tools/transcript_tool.py:100-118 | every summary field, including the step count and the Yes/No flag, can be recovered from the block's lines |
| Transcript.SummaryReadsBack | src/hebrew_call_center/tools/transcript_tool.py:100-122 | the appended text, read back line by line, gives back the summary and its date |
| Transcript.LogSystemEvent | src/hebrew_call_center/tools/transcript_tool.py:137-155 | one event is appended to the call log; the transcript is untouched; an open failure changes nothing and returns `[SYSTEM LOG ERROR]` plus the message |
| Transcript.DataLinesText | src/hebrew_call_center/tools/transcript_tool.py:147-148 | a `Data:` line with the JSON text is written iff the data dictionary is truthy |
| Transcript.EventTextIsLines | src/hebrew_call_center/tools/transcript_tool.py:145-149 | the event text is its heading line, its data lines and one blank line |
| Transcript.EventReadsBack | src/hebrew_call_center/tools/transcript_tool.py:145-149 | read line by line, the call log gains exactly the event's lines |
| Pipeline.Error | src/hebrew_call_center/crew.py:228 | the error text starts with `Error processing message <n>: `, and what follows that head is exactly the exception message |
| Pipeline.BlankTest | src/hebrew_call_center/crew.py:210 | the test `not t or not t.strip()` holds exactly for blank transcriptions |
| Pipeline.Fallback | src/hebrew_call_center/crew.py:209-211 | a non-blank transcription is kept; otherwise the nikud text when non-empty, else the original |
| Pipeline.FallbackNotBlank | src/hebrew_call_center/crew.py:209-211 | the transcribed text is never blank when the original is not and the nikud text is empty or not blank |
| Pipeline.WhitespaceNikudIsKept | src/hebrew_call_center/crew.py:211 | a whitespace nikud text and an empty transcription give a blank transcribed text for a non-blank original |
| Pipeline.Message | src/hebrew_call_center/crew.py:198-236 | success iff all three stages return, each stage consuming the previous one's output; a failure records the step number |
| Pipeline.FailedCarriesFirstException | src/hebrew_call_center/crew.py:199-228 | a failed record carries the message of the first stage that raised, whether nikud, speech synthesis or transcription |
| Pipeline.Items | src/hebrew_call_center/crew.py:219-236 | the returned dictionary starts with `original` and ends with `status`; a success is exactly `original`, `nikud`, `audio_file`, `transcribed`, `status` with the record's values; a failure has exactly `original`, `error`, `status` |
| Pipeline.ProcessMessage | src/hebrew_call_center/crew.py:193-236 | a success writes to the transcript only, a failure to the call log only, and neither log loses anything |
| Pipeline.ProcessMessageLogs | src/hebrew_call_center/crew.py:213-230 | a success appends the step block stamped with the current time; a failure appends an `ERROR` event with the step and speaker as data; with both files unopenable nothing changes |
| Pipeline.WiredMessage | src/hebrew_call_center/crew.py:201-211 | with the modelled stages every message succeeds; speech is made from the nikud text and transcribed from that audio; the fallback applies exactly when the transcription is empty |
| Session.Script | src/hebrew_call_center/crew.py:246-253 | the script has six turns |
| Session.SliceTo | src/hebrew_call_center/crew.py:258 | `s[:k]` for any integer k, negative k counting from the end |
| Session.TurnCap | src/hebrew_call_center/crew.py:258 | a cap from 0 to 6 keeps that many turns, a larger one all six, a cap from -6 to -1 drops that many, and anything lower leaves none |
| Session.RunTurns | src/hebrew_call_center/crew.py:257-269 | at most one record per turn, and both logs only grow |
| Session.AllMessagesAt | src/hebrew_call_center/crew.py:258-263 | turn i is processed with its own text and step number i plus the first number |
| Session.UpToFirstFailure | src/hebrew_call_center/crew.py:264-269 | a prefix in which every record but the last succeeds, and which, when shorter than the input, ends in a failure |
| Session.UpToFirstFailureAllSuccess | src/hebrew_call_center/crew.py:266-269 | without a failure nothing is cut |
| Session.RunTurnsLogsKeptTurns | src/hebrew_call_center/crew.py:258-269 | the loop's logs are exactly what processing the kept turns, in order, writes: no turn after the first failure is processed or logged |
| Session.RunTurnsStopsAtFirstFailure | src/hebrew_call_center/crew.py:257-269 | the records of the loop are the per-turn records up to and including the first failure |
| Session.CountSuccess | src/hebrew_call_center/crew.py:272 | the count is at most the number of records, and equals it iff every record succeeded |
| Session.CountAfterEarlyStop | src/hebrew_call_center/crew.py:264-272 | after an early stop exactly one record failed |
| Session.SummaryOf | src/hebrew_call_center/crew.py:272-281 | the summary counts the records and is resolved iff at least four succeeded, with the matching outcome, satisfaction and `Processed s/t steps successfully` note |
| Session.SummaryExtends | src/hebrew_call_center/crew.py:275-281 | the summary only appends to the transcript and leaves the call log alone |
| Session.Converse | src/hebrew_call_center/crew.py:255-291 | the results are the per-turn records up to the first failure; the counts and the outcome follow the threshold; the logs only grow and end with the summary |
| Session.RunConversation | src/hebrew_call_center/crew.py:238-291 | the session runs over the script cut at `max_turns`, and the outcome is resolved iff at least four steps succeeded |
| Session.WiredSessionCompletes | src/hebrew_call_center/crew.py:238-291 | with the modelled stages every kept turn is processed and succeeds |
| Session.WiredScenarios | src/hebrew_call_center/crew.py:258-273 | six turns resolve the call, three leave it incomplete, and a cap of -2 keeps four and resolves it |
| Session.NewCrew | src/hebrew_call_center/crew.py:46-77 | no step taken, the cap kept, the agents exactly the sanitised loaded configuration; a transcript that opens is reset to its header, one that does not leaves both logs alone, and the call log is kept when only it fails to open |

## Left out

- File I/O, the network and the Whisper, gTTS, pydub and Phonikud engines are function-valued fields of each stage's environment. Their results are arbitrary. Module imports and the loading of the Whisper model are fixed fields: the Phonikud import is an `Outcome<()>`, and the optional `phonemize` import and the Whisper model are `bool` flags. The presence of FFmpeg is a `bool` parameter.
- The clock and `uuid.uuid4()` are parameters: a timestamp string and drawn identifiers.
- Logging through the `logging` module is left out: it has no effect on results.
- Reading `.env`, `agents.yaml` and `tasks.yaml` is left out. The model starts from the parsed YAML value, or from `None` when reading failed. `tasks_config` is not read by the modelled operations.
- Parsing `MAX_CONVERSATION_TURNS` with `int()` is left out: the cap is an integer parameter.
- The `@tool` wrappers are left out: they pass their arguments through to the modelled functions unchanged.
- The CrewAI agents, tasks and crew object are left out: they are framework calls.
- The `FATAL_ERROR` branch of `run_conversation_simulation` is left out. `process_hebrew_message` catches every exception, and the rest of the loop cannot raise.
- Session.NewCrew: the `self.token_usage` counter is left out, because the core never reads it.
- AgentConfig.AgentConfigWithoutTools: an entry list holding a pair with a number, boolean or null key, or a two-key mapping, gives `None`, because the resulting dictionary would need non-string keys or key order.
- AgentConfig.Yaml: the scalars modelled are strings, integers, booleans and null; floats, dates and the other YAML scalar types are not. Inside an agent's entry such a value would only be copied, and as a whole entry `dict()` rejects it with `TypeError`, as it rejects an integer. Only string mapping keys are modelled.
- Text.Repr: non-printable characters beyond Latin-1 (such as U+2028) are written as they are, where Python uses `\u` escapes.
- Json.Dumps: nested lists and dictionaries are not modelled, because the core logs only flat dictionaries of scalars.
- Tts.SilentWav: the RIFF header bytes the `wave` module writes are not modelled. Only the channel count, sample width, frame rate and frames are.
- Pipeline.ProcessMessage: the timestamp is one value for the whole message. Each message writes at most one log entry, so one set of faults per message is exact.
- Session.Converse: the faults for each step are a function of the step number, and the summary write has its own faults. A file that fails only partway through a write is not modelled.
- Path joining uses `/`. Windows separators are not modelled.

=== FILE: agent_config.dfy ===
/** The agent configuration the crew keeps in memory (`crew.py`): the parsed
    `agents.yaml` with the `tools` entry removed from every agent, because the
    crew supplies real tool objects in code instead of tool names. */
module AgentConfig {
  import opened Wrappers
  import opened Text

  /** A value `yaml.safe_load` can produce. Mapping keys are strings. */
  datatype Yaml =
    | YMap(entries: map<string, Yaml>)
    | YList(items: seq<Yaml>)
    | YStr(s: string)
    | YInt(i: int)
    | YBool(b: bool)
    | YNull

  const ToolsKey := "tools"

  /** One agent's entry with `tools` dropped; anything but a mapping is kept as is. */
  function WithoutTools(cfg: Yaml): (r: Yaml)
    ensures r.YMap? <==> cfg.YMap?
    ensures !cfg.YMap? ==> r == cfg
    ensures cfg.YMap? ==> ToolsKey !in r.entries
    ensures cfg.YMap? ==> forall k :: k != ToolsKey ==>
      (k in r.entries <==> k in cfg.entries) && (k in r.entries ==> r.entries[k] == cfg.entries[k])
  {
    match cfg
    case YMap(e) => if ToolsKey in e then YMap(e - {ToolsKey}) else cfg
    case _ => cfg
  }

  /** The loop over `loaded_agents.items()` in `__init__`. */
  function Sanitize(agents: map<string, Yaml>): (r: map<string, Yaml>)
    ensures r.Keys == agents.Keys
    ensures forall a :: a in r ==> r[a] == WithoutTools(agents[a])
  {
    map a | a in agents :: WithoutTools(agents[a])
  }

  /** After sanitising, no agent entry that is a mapping names tools, every
      other key of such an entry keeps its value, and entries that are not
      mappings are untouched. */
  lemma SanitizeRemovesOnlyTools(agents: map<string, Yaml>, a: string)
    requires a in agents
    ensures a in Sanitize(agents)
    ensures agents[a].YMap? ==> Sanitize(agents)[a].YMap? && ToolsKey !in Sanitize(agents)[a].entries
    ensures agents[a].YMap? ==> forall k :: k in agents[a].entries && k != ToolsKey ==>
      k in Sanitize(agents)[a].entries && Sanitize(agents)[a].entries[k] == agents[a].entries[k]
    ensures !agents[a].YMap? ==> Sanitize(agents)[a] == agents[a]
  {
  }

  /** Sanitising a sanitised configuration changes nothing. */
  lemma SanitizeIdempotent(agents: map<string, Yaml>)
    ensures Sanitize(Sanitize(agents)) == Sanitize(agents)
  {
    var once := Sanitize(agents);
    forall a | a in once ensures WithoutTools(once[a]) == once[a] {
      if once[a].YMap? {
        assert ToolsKey !in once[a].entries;
      }
    }
  }

  /** `self.agents_config` after `__init__`. `loaded` is what
      `yaml.safe_load` returned, or `None` when opening or parsing the file
      raised. A falsy document becomes `{}`; a truthy one that is not a
      mapping has no `items()`, and the handler also falls back to `{}`. */
  function SanitizeLoaded(loaded: Option<Yaml>): (r: map<string, Yaml>)
    ensures loaded.Some? && loaded.value.YMap? ==> r == Sanitize(loaded.value.entries)
    ensures !(loaded.Some? && loaded.value.YMap?) ==> r == map[]
  {
    match loaded
    case Some(YMap(e)) => Sanitize(e)
    case _ => map[]
  }

  // ---------------------------------------------------------------------------
  // `dict(entry)`
  // ---------------------------------------------------------------------------

  /** `str(e)` of the errors `dict()` raises on a value that is not a mapping. */
  function NotIterable(typeName: string): string {
    "'" + typeName + "' object is not iterable"
  }

  function BadLength(index: nat, n: nat): string {
    "dictionary update sequence element #" + IntToString(index) + " has length " + IntToString(n) + "; 2 is required"
  }

  function NotASequence(index: nat): string {
    "cannot convert dictionary update sequence element #" + IntToString(index) + " to a sequence"
  }

  function Unhashable(typeName: string): string {
    "unhashable type: '" + typeName + "'"
  }

  /** A list element `dict()` reads as a key/value pair with a string key:
      a two-element list starting with a string, or a two-character string. */
  predicate StringPair(item: Yaml) {
    (item.YList? && |item.items| == 2 && item.items[0].YStr?) || (item.YStr? && |item.s| == 2)
  }

  function KeyOf(item: Yaml): string
    requires StringPair(item)
  {
    if item.YList? then item.items[0].s else [item.s[0]]
  }

  function ValueOf(item: Yaml): Yaml
    requires StringPair(item)
  {
    if item.YList? then item.items[1] else YStr([item.s[1]])
  }

  /** Python's pair has a key this model's string-keyed mappings cannot
      hold: a number, boolean or null key, or the two keys of a two-key
      mapping, whose order the model does not keep. */
  predicate Unrepresentable(item: Yaml) {
    || (item.YList? && |item.items| == 2 && (item.items[0].YInt? || item.items[0].YBool? || item.items[0].YNull?))
    || (item.YMap? && |item.entries| == 2)
  }

  /** Element `index` of a list given to `dict()`, read as a pair. Anything
      whose length is not two is a `ValueError`, a scalar or an unhashable
      key a `TypeError`; `None` for an unrepresentable pair. */
  function PairOf(item: Yaml, index: nat): (r: Option<Outcome<(string, Yaml)>>)
    ensures StringPair(item) ==> r == Some(Ok((KeyOf(item), ValueOf(item))))
    ensures r.None? <==> Unrepresentable(item)
    ensures r.Some? && r.value.Raised? ==> r.value.exn.kind == TypeError || r.value.exn.kind == ValueError
    ensures r.Some? && r.value.Ok? ==> StringPair(item)
  {
    match item
    case YList(xs) =>
      if |xs| != 2 then Some(Raised(Exn(ValueError, BadLength(index, |xs|))))
      else (
        match xs[0]
        case YStr(k) => Some(Ok((k, xs[1])))
        case YList(_) => Some(Raised(Exn(TypeError, Unhashable("list"))))
        case YMap(_) => Some(Raised(Exn(TypeError, Unhashable("dict"))))
        case _ => None)
    case YStr(t) =>
      if |t| != 2 then Some(Raised(Exn(ValueError, BadLength(index, |t|))))
      else Some(Ok(([t[0]], YStr([t[1]]))))
    case YMap(e) =>
      if |e| != 2 then Some(Raised(Exn(ValueError, BadLength(index, |e|)))) else None
    case _ => Some(Raised(Exn(TypeError, NotASequence(index))))
  }

  /** The pairs from element `index` on, added to `acc` left to right; the
      first element that is not a pair stops it. */
  function AddPairs(items: seq<Yaml>, index: nat, acc: map<string, Yaml>): Option<Outcome<map<string, Yaml>>>
    decreases |items|
  {
    if items == [] then Some(Ok(acc))
    else
      match PairOf(items[0], index)
      case None => None
      case Some(Raised(e)) => Some(Raised(e))
      case Some(Ok(p)) => AddPairs(items[1..], index + 1, acc[p.0 := p.1])
  }

  /** Python's `dict(v)`: a mapping is copied, an empty string is `{}`, a
      list is read as key/value pairs, and any other value raises. `None`
      when Python's result is not representable here (see `Unrepresentable`). */
  function DictOf(v: Yaml): (r: Option<Outcome<map<string, Yaml>>>)
    ensures v.YMap? ==> r == Some(Ok(v.entries))
    ensures v.YStr? && v.s == "" ==> r == Some(Ok(map[]))
    ensures v.YStr? && v.s != "" ==> r == Some(Raised(Exn(ValueError, BadLength(0, 1))))
    ensures v == YList([]) ==> r == Some(Ok(map[]))
    ensures v.YInt? || v.YBool? || v.YNull? ==> r.Some? && r.value.Raised? && r.value.exn.kind == TypeError
  {
    match v
    case YMap(e) => Some(Ok(e))
    case YList(items) => AddPairs(items, 0, map[])
    case YStr(t) => if t == "" then Some(Ok(map[])) else Some(Raised(Exn(ValueError, BadLength(0, 1))))
    case YInt(_) => Some(Raised(Exn(TypeError, NotIterable("int"))))
    case YBool(_) => Some(Raised(Exn(TypeError, NotIterable("bool"))))
    case YNull => Some(Raised(Exn(TypeError, NotIterable("NoneType"))))
  }

  predicate AllStringPairs(items: seq<Yaml>) {
    forall i :: 0 <= i < |items| ==> StringPair(items[i])
  }

  /** No later pair names the key of pair `i`. */
  predicate LastWithKey(items: seq<Yaml>, i: int)
    requires AllStringPairs(items) && 0 <= i < |items|
  {
    forall j :: i < j < |items| ==> KeyOf(items[j]) != KeyOf(items[i])
  }

  /** Adding pairs to `acc` gives the keys of `acc` and of the pairs; a key
      the pairs name has the value of the last pair naming it, and any other
      key keeps its value from `acc`. */
  lemma {:induction false} AddStringPairs(items: seq<Yaml>, index: nat, acc: map<string, Yaml>)
    requires AllStringPairs(items)
    ensures AddPairs(items, index, acc).Some? && AddPairs(items, index, acc).value.Ok?
    ensures var m := AddPairs(items, index, acc).value.value;
      forall k :: k in m <==> k in acc || exists i :: 0 <= i < |items| && KeyOf(items[i]) == k
    ensures var m := AddPairs(items, index, acc).value.value;
      forall i :: 0 <= i < |items| && LastWithKey(items, i) ==> KeyOf(items[i]) in m && m[KeyOf(items[i])] == ValueOf(items[i])
    ensures var m := AddPairs(items, index, acc).value.value;
      forall k :: k in acc && (forall i :: 0 <= i < |items| ==> KeyOf(items[i]) != k) ==> k in m && m[k] == acc[k]
    decreases |items|
  {
    if items != [] {
      var rest := items[1..];
      var acc' := acc[KeyOf(items[0]) := ValueOf(items[0])];
      assert forall i :: 0 <= i < |rest| ==> rest[i] == items[i + 1];
      AddStringPairs(rest, index + 1, acc');
      var m := AddPairs(items, index, acc).value.value;
      assert m == AddPairs(rest, index + 1, acc').value.value;
      forall k ensures k in m <==> k in acc || exists i :: 0 <= i < |items| && KeyOf(items[i]) == k {
        if exists i :: 0 <= i < |rest| && KeyOf(rest[i]) == k {
          var i :| 0 <= i < |rest| && KeyOf(rest[i]) == k;
          assert KeyOf(items[i + 1]) == k;
        }
        if exists i :: 0 <= i < |items| && KeyOf(items[i]) == k {
          var i :| 0 <= i < |items| && KeyOf(items[i]) == k;
          if i > 0 {
            assert KeyOf(rest[i - 1]) == k;
          }
        }
      }
      forall i | 0 <= i < |items| && LastWithKey(items, i)
        ensures KeyOf(items[i]) in m && m[KeyOf(items[i])] == ValueOf(items[i])
      {
        if i == 0 {
          forall j | 0 <= j < |rest| ensures KeyOf(rest[j]) != KeyOf(items[0]) {
            assert rest[j] == items[j + 1];
          }
        } else {
          assert rest[i - 1] == items[i];
          forall j | i - 1 < j < |rest| ensures KeyOf(rest[j]) != KeyOf(rest[i - 1]) {
            assert rest[j] == items[j + 1];
          }
          assert LastWithKey(rest, i - 1);
        }
      }
      forall k | k in acc && (forall i :: 0 <= i < |items| ==> KeyOf(items[i]) != k)
        ensures k in m && m[k] == acc[k]
      {
        assert KeyOf(items[0]) != k;
        forall j | 0 <= j < |rest| ensures KeyOf(rest[j]) != k {
          assert rest[j] == items[j + 1];
        }
      }
    }
  }

  /** `dict()` of a list of key/value pairs holds exactly the keys the pairs
      name, each with the value of the last pair naming it. */
  lemma DictOfPairs(items: seq<Yaml>)
    requires AllStringPairs(items)
    ensures DictOf(YList(items)).Some? && DictOf(YList(items)).value.Ok?
    ensures forall k :: k in DictOf(YList(items)).value.value <==> exists i :: 0 <= i < |items| && KeyOf(items[i]) == k
    ensures forall i :: 0 <= i < |items| && LastWithKey(items, i) ==>
      DictOf(YList(items)).value.value[KeyOf(items[i])] == ValueOf(items[i])
  {
    AddStringPairs(items, 0, map[]);
  }

  /** `_agent_config_without_tools`: a copy of one agent's entry, made with
      `dict()`, without `tools`. A missing key raises `KeyError` showing the
      key as `repr` does; an entry `dict()` cannot copy raises its error.
      `None` when the copy is not representable here. */
  function AgentConfigWithoutTools(agents: map<string, Yaml>, key: string): (r: Option<Outcome<map<string, Yaml>>>)
    ensures key !in agents ==> r == Some(Raised(Exn(KeyError, Repr(key))))
    ensures key in agents && DictOf(agents[key]).None? ==> r.None?
    ensures key in agents && DictOf(agents[key]).Some? && DictOf(agents[key]).value.Raised? ==> r == DictOf(agents[key])
    ensures key in agents && DictOf(agents[key]).Some? && DictOf(agents[key]).value.Ok? ==>
      r.Some? && r.value.Ok? && ToolsKey !in r.value.value
      && r.value.value.Keys == DictOf(agents[key]).value.value.Keys - {ToolsKey}
      && forall k :: k in r.value.value ==> r.value.value[k] == DictOf(agents[key]).value.value[k]
  {
    if key !in agents then Some(Raised(Exn(KeyError, Repr(key))))
    else
      match DictOf(agents[key])
      case None => None
      case Some(Raised(e)) => Some(Raised(e))
      case Some(Ok(cfg)) => Some(Ok(if ToolsKey in cfg then cfg - {ToolsKey} else cfg))
  }

  /** Entries that are not mappings: an empty list or string copies to `{}`,
      a list of pairs naming `tools` loses that pair, and a number raises
      `TypeError`. */
  lemma WithoutToolsOfOtherEntries()
    ensures AgentConfigWithoutTools(map["a" := YList([])], "a") == Some(Ok(map[]))
    ensures AgentConfigWithoutTools(map["a" := YStr("")], "a") == Some(Ok(map[]))
    ensures AgentConfigWithoutTools(map["a" := YList([YList([YStr("tools"), YStr("x")]), YList([YStr("role"), YStr("r")])])], "a")
      == Some(Ok(map["role" := YStr("r")]))
    ensures AgentConfigWithoutTools(map["a" := YInt(1)], "a").value.Raised?
    ensures AgentConfigWithoutTools(map["a" := YInt(1)], "a").value.exn.kind == TypeError
  {
    var pairs := [YList([YStr("tools"), YStr("x")]), YList([YStr("role"), YStr("r")])];
    assert AddPairs(pairs, 0, map[]) == AddPairs(pairs[1..], 1, map["tools" := YStr("x")]);
    assert AddPairs(pairs[1..], 1, map["tools" := YStr("x")])
      == AddPairs([], 2, map["tools" := YStr("x"), "role" := YStr("r")]);
    assert map["tools" := YStr("x"), "role" := YStr("r")] - {ToolsKey} == map["role" := YStr("r")];
  }

  /** On the sanitised configuration the per-agent removal has nothing left
      to do: it returns exactly the sanitised entry. */
  lemma WithoutToolsAfterSanitize(agents: map<string, Yaml>, key: string)
    requires key in agents && agents[key].YMap?
    ensures AgentConfigWithoutTools(Sanitize(agents), key) == Some(Ok(Sanitize(agents)[key].entries))
  {
  }
}

=== FILE: json.dfy ===
/** `json.dumps(data, indent=2, ensure_ascii=False)` for the flat dictionaries
    the call log records: string keys and scalar values, in insertion order. */
module Json {
  import opened Text

  /** A scalar JSON value. Nested lists and objects are not modelled. */
  datatype Value = JInt(i: int) | JStr(s: string) | JBool(b: bool) | JNull

  /** A dictionary as its items in insertion order (Python dicts keep it). */
  type Object = seq<(string, Value)>

  /** How the encoder writes one character of a string literal: the quote, the
      backslash and every control character are escaped, everything else
      (non-ASCII included, since `ensure_ascii` is off) is written as is. */
  function EscapeChar(c: char): string {
    if c == '"' then "\\\""
    else if c == '\\' then "\\\\"
    else if c == '\n' then "\\n"
    else if c == '\r' then "\\r"
    else if c == '\t' then "\\t"
    else if c == '\U{8}' then "\\b"
    else if c == '\U{C}' then "\\f"
    else if (c as int) < 0x20 then "\\u00" + [HexDigits[(c as int) / 16], HexDigits[(c as int) % 16]]
    else [c]
  }

  function Escape(s: string): (r: string)
    ensures NoNewline(r)
  {
    if s == [] then []
    else
      EscapeCharOneLine(s[0]);
      NoNewlineAppend(EscapeChar(s[0]), Escape(s[1..]));
      EscapeChar(s[0]) + Escape(s[1..])
  }

  /** No character is written as a raw newline. */
  lemma EscapeCharOneLine(c: char)
    ensures NoNewline(EscapeChar(c))
  {
    if (c as int) < 0x20 && c != '\n' && c != '\r' && c != '\t' && c != '\U{8}' && c != '\U{C}' {
      var v := c as int;
      NoNewlineAppend("\\u00", [HexDigits[v / 16], HexDigits[v % 16]]);
    }
  }

  /** A JSON string literal. */
  function Quote(s: string): string {
    "\"" + Escape(s) + "\""
  }

  function HexValue(c: char): int {
    if '0' <= c <= '9' then (c as int) - ('0' as int)
    else if 'a' <= c <= 'f' then (c as int) - ('a' as int) + 10
    else 0
  }

  /** Decodes the body of a JSON string literal: the reader the encoder's
      escapes are written for. */
  function Unescape(s: string): string
    decreases |s|
  {
    if s == [] then []
    else if s[0] == '\\' && |s| >= 2 then
      var e := s[1];
      if e == 'u' && |s| >= 6 then
        var v := 4096 * HexValue(s[2]) + 256 * HexValue(s[3]) + 16 * HexValue(s[4]) + HexValue(s[5]);
        (if 0 <= v < 0xD800 then [v as char] else []) + Unescape(s[6..])
      else
        var c := if e == 'n' then '\n' else if e == 'r' then '\r' else if e == 't' then '\t'
                 else if e == 'b' then '\U{8}' else if e == 'f' then '\U{C}' else e;
        [c] + Unescape(s[2..])
    else [s[0]] + Unescape(s[1..])
  }

  lemma UnescapeChar(c: char, rest: string)
    ensures Unescape(EscapeChar(c) + rest) == [c] + Unescape(rest)
  {
    var e := EscapeChar(c);
    if (c as int) < 0x20 && c != '\n' && c != '\r' && c != '\t' && c != '\U{8}' && c != '\U{C}' {
      UnescapeControl(c, rest);
    } else if |e| == 2 {
      assert (e + rest)[2..] == rest;
    } else {
      assert (e + rest)[1..] == rest;
    }
  }

  /** A control character without a short escape comes back from its
      six-character `\u00XX` form. */
  lemma UnescapeControl(c: char, rest: string)
    requires (c as int) < 0x20 && c != '\n' && c != '\r' && c != '\t' && c != '\U{8}' && c != '\U{C}'
    ensures Unescape(EscapeChar(c) + rest) == [c] + Unescape(rest)
  {
    var v := c as int;
    var s := EscapeChar(c) + rest;
    assert s[0] == '\\' && s[1] == 'u' && s[2] == '0' && s[3] == '0';
    assert HexValue(HexDigits[v / 16]) == v / 16;
    assert HexValue(HexDigits[v % 16]) == v % 16;
    assert s[6..] == rest;
  }

  /** Decoding what the encoder wrote gives back the original string. */
  lemma {:induction false} UnescapeEscape(s: string)
    ensures Unescape(Escape(s)) == s
  {
    if s != [] {
      UnescapeChar(s[0], Escape(s[1..]));
      UnescapeEscape(s[1..]);
    }
  }

  function Render(v: Value): (r: string)
    ensures NoNewline(r)
  {
    match v
    case JInt(i) => IntToString(i)
    case JStr(s) => Quote(s)
    case JBool(b) => if b then "true" else "false"
    case JNull => "null"
  }

  /** The item lines between the braces: two spaces of indent, `": "` between
      key and value, a comma after every item but the last. */
  function ItemLines(items: Object): (ls: seq<string>)
    ensures |ls| == |items|
    ensures forall k :: 0 <= k < |ls| ==> NoNewline(ls[k])
  {
    if items == [] then []
    else
      var line := "  " + Quote(items[0].0) + ": " + Render(items[0].1);
      if |items| == 1 then [line] else [line + ","] + ItemLines(items[1..])
  }

  /** `json.dumps(items, indent=2, ensure_ascii=False)`: `{}` for an empty
      dictionary, otherwise one item per line between lines holding only the braces. */
  function Dumps(items: Object): (r: string)
    ensures items == [] ==> r == "{}"
    ensures items != [] ==> r + "\n" == Lines(DumpLines(items))
  {
    if items == [] then "{}"
    else
      var ls := ItemLines(items);
      BracedLines(ls);
      "{\n" + JoinItems(ls) + "\n}"
  }

  lemma BracedLines(ls: seq<string>)
    requires ls != []
    ensures "{\n" + JoinItems(ls) + "\n}" + "\n" == Lines(["{"] + ls + ["}"])
  {
    JoinItemsLines(ls);
    LinesAppend(["{"] + ls, ["}"]);
    LinesAppend(["{"], ls);
    LinesCons("{", []);
    LinesCons("}", []);
  }

  function DumpLines(items: Object): seq<string> {
    ["{"] + ItemLines(items) + ["}"]
  }

  /** `"\n".join(ls)`. */
  function JoinItems(ls: seq<string>): string {
    if ls == [] then "" else if |ls| == 1 then ls[0] else ls[0] + "\n" + JoinItems(ls[1..])
  }

  lemma {:induction false} JoinItemsLines(ls: seq<string>)
    requires ls != []
    ensures JoinItems(ls) + "\n" == Lines(ls)
  {
    if |ls| > 1 {
      JoinItemsLines(ls[1..]);
    }
  }
}

=== FILE: nikud.dfy ===
/** The diacritization stage (`tools/nikud_tool.py`): adds nikud to Hebrew
    text with the Phonikud model, and degrades instead of failing — a missing
    library or model file gives the text back unchanged, an inference error
    gives a marker string. */
module Nikud {
  import opened Wrappers
  import opened Text

  const DefaultModelPath := "./phonikud-1.0.int8.onnx"
  const ErrorPrefix := "[NIKUD ERROR] "

  /** What the diacritizer finds around it. */
  datatype NikudEnv = NikudEnv(
    /** `from phonikud_tts import Phonikud`: succeeds, or raises (an
        `ImportError` when the library is missing, anything else when the
        library fails while loading) */
    importPhonikud: Outcome<()>,
    /** `from phonikud_tts import phonemize` succeeds */
    phonemizeInstalled: bool,
    /** the `PHONIKUD_MODEL_PATH` environment variable, if set */
    modelPathVar: Option<string>,
    /** `os.path.exists` */
    fileExists: string -> bool,
    /** `Phonikud(model_path).add_diacritics(text)`: loading the model and
        running it, which may raise (an `ImportError` among others) */
    diacritize: (string, string) -> Outcome<string>)

  /** Where the model is loaded from: the environment variable, else the default. */
  function ModelPath(env: NikudEnv): (p: string)
    ensures env.modelPathVar.None? ==> p == DefaultModelPath
    ensures env.modelPathVar.Some? ==> p == env.modelPathVar.value
  {
    env.modelPathVar.GetOr(DefaultModelPath)
  }

  /** The text normaliser. Whether or not the optional import succeeds, the
      source binds it to the identity, so the model sees the caller's text. */
  function Normalize(phonemizeInstalled: bool, x: string): (r: string)
    ensures r == x
  {
    if phonemizeInstalled then x else x
  }

  /** The model is actually run: the library imports and the model file exists. */
  predicate ModelConsulted(env: NikudEnv) {
    env.importPhonikud.Ok? && env.fileExists(ModelPath(env))
  }

  /** `add_nikud_to_hebrew_text_impl`. */
  function AddNikud(env: NikudEnv, text: string): (r: string)
    ensures env.importPhonikud.Raised? ==>
      r == (if env.importPhonikud.exn.kind == ImportError then text else ErrorPrefix + env.importPhonikud.exn.msg)
    ensures env.importPhonikud.Ok? && !env.fileExists(ModelPath(env)) ==> r == text
    ensures ModelConsulted(env) ==>
      match env.diacritize(ModelPath(env), text)
      case Ok(v) => r == v
      case Raised(e) => r == (if e.kind == ImportError then text else ErrorPrefix + e.msg)
  {
    match env.importPhonikud
    case Raised(e) => if e.kind == ImportError then text else ErrorPrefix + e.msg
    case Ok(_) =>
      var path := ModelPath(env);
      if !env.fileExists(path) then text
      else
        match env.diacritize(path, Normalize(env.phonemizeInstalled, text))
        case Ok(vocalized) => vocalized
        case Raised(e) => if e.kind == ImportError then text else ErrorPrefix + e.msg
  }

  /** The exception that reaches the generic handler: one raised by the
      import or by the model that is not an `ImportError`. */
  function Escaped(env: NikudEnv, text: string): Option<Exn> {
    if env.importPhonikud.Raised? then
      (if env.importPhonikud.exn.kind != ImportError then Some(env.importPhonikud.exn) else None)
    else if ModelConsulted(env) && env.diacritize(ModelPath(env), text).Raised?
            && env.diacritize(ModelPath(env), text).exn.kind != ImportError then
      Some(env.diacritize(ModelPath(env), text).exn)
    else None
  }

  /** The stage never raises: an escaped exception becomes the marker, and
      otherwise the result is the model's answer or the text unchanged. */
  lemma AddNikudDegrades(env: NikudEnv, text: string)
    ensures Escaped(env, text).Some? ==> AddNikud(env, text) == ErrorPrefix + Escaped(env, text).value.msg
    ensures Escaped(env, text).None? ==>
      AddNikud(env, text) == text
      || (ModelConsulted(env) && env.diacritize(ModelPath(env), text) == Ok(AddNikud(env, text)))
  {
  }

  /** Whatever happens, the stage answers with the text itself, the model's
      answer for it, or the marker followed by the message of an exception
      other than `ImportError` that the import or the model raised. */
  lemma AddNikudResultKinds(env: NikudEnv, text: string)
    ensures var r := AddNikud(env, text);
      || r == text
      || env.diacritize(ModelPath(env), text) == Ok(r)
      || exists e: Exn :: e.kind != ImportError && r == ErrorPrefix + e.msg
           && (env.importPhonikud == Raised(e) || env.diacritize(ModelPath(env), text) == Raised(e))
  {
    var r := AddNikud(env, text);
    if env.importPhonikud.Raised? && env.importPhonikud.exn.kind != ImportError {
      var e := env.importPhonikud.exn;
      assert env.importPhonikud == Raised(e) && r == ErrorPrefix + e.msg;
    } else if ModelConsulted(env) && env.diacritize(ModelPath(env), text).Raised?
              && env.diacritize(ModelPath(env), text).exn.kind != ImportError {
      var e := env.diacritize(ModelPath(env), text).exn;
      assert env.diacritize(ModelPath(env), text) == Raised(e) && r == ErrorPrefix + e.msg;
    }
  }

  /** When neither the text nor the model's answer for it starts with the
      marker, the result carries the marker exactly when an exception other
      than `ImportError` escaped the import or the model. */
  lemma AddNikudMarkerIffEscaped(env: NikudEnv, text: string)
    requires !StartsWith(ErrorPrefix, text)
    requires env.diacritize(ModelPath(env), text).Ok? ==>
      !StartsWith(ErrorPrefix, env.diacritize(ModelPath(env), text).value)
    ensures StartsWith(ErrorPrefix, AddNikud(env, text)) <==>
      || (env.importPhonikud.Raised? && env.importPhonikud.exn.kind != ImportError)
      || (ModelConsulted(env) && env.diacritize(ModelPath(env), text).Raised?
          && env.diacritize(ModelPath(env), text).exn.kind != ImportError)
  {
    if env.importPhonikud.Raised? && env.importPhonikud.exn.kind != ImportError {
      StartsWithAppend(ErrorPrefix, env.importPhonikud.exn.msg);
    } else if ModelConsulted(env) && env.diacritize(ModelPath(env), text).Raised? {
      StartsWithAppend(ErrorPrefix, env.diacritize(ModelPath(env), text).exn.msg);
    }
  }

  /** `add_nikud_batch`: one result per input, in order. */
  method AddNikudBatch(env: NikudEnv, texts: seq<string>) returns (results: seq<string>)
    ensures |results| == |texts|
    ensures forall i :: 0 <= i < |texts| ==> results[i] == AddNikud(env, texts[i])
  {
    results := [];
    var i := 0;
    while i < |texts|
      invariant 0 <= i <= |texts|
      invariant |results| == i
      invariant forall j :: 0 <= j < i ==> results[j] == AddNikud(env, texts[j])
    {
      results := results + [AddNikud(env, texts[i])];
      i := i + 1;
    }
  }
}

=== FILE: pipeline.dfy ===
/** One message through the call-center pipeline (`process_hebrew_message`
    in `crew.py`): original text → nikud → speech → transcription → transcript.
    The three stages are parameters; `Wired` plugs in the stage models of this
    project. */
module Pipeline {
  import opened Wrappers
  import opened Text
  import Json
  import Transcript
  import Nikud
  import Tts
  import Stt

  /** The dictionary `process_hebrew_message` returns. A failed record has
      no nikud, audio or transcription fields; its error text (`Error`) is
      built from the step number and the exception's message. */
  datatype MessageResult =
    | Success(original: string, nikud: string, audioFile: string, transcribed: string)
    | Failed(original: string, step: int, cause: string)

  /** The three stage calls. Each may raise; an exception escaping a stage
      is caught by the pipeline. */
  datatype Stages = Stages(
    nikud: string -> Outcome<string>,
    tts: (string, int) -> Outcome<string>,
    stt: string -> Outcome<string>)

  const ErrorHead := "Error processing message "

  /** The `error` value of a failed record. */
  function Error(r: MessageResult): (e: string)
    requires r.Failed?
    ensures StartsWith(ErrorHead + IntToString(r.step) + ": ", e)
    ensures |e| == |ErrorHead| + |IntToString(r.step)| + 2 + |r.cause|
    ensures e[|ErrorHead + IntToString(r.step) + ": "|..] == r.cause
  {
    var head := ErrorHead + IntToString(r.step) + ": ";
    StartsWithAppend(head, r.cause);
    head + r.cause
  }

  /** The source's test for a useless transcription, `not t or not
      str(t).strip()`, is exactly blankness. */
  lemma BlankTest(t: string)
    ensures (t == "" || Strip(t) == "") <==> IsBlank(t)
  {
  }

  /** What goes into the transcript as the transcribed text: the
      transcription unless it is blank (see `BlankTest`), else the nikud
      text when that is non-empty (`nikud_text or text`), else the original. */
  function Fallback(text: string, nikud: string, t: string): (r: string)
    ensures !IsBlank(t) ==> r == t
    ensures IsBlank(t) && nikud != "" ==> r == nikud
    ensures IsBlank(t) && nikud == "" ==> r == text
    ensures r == t || r == nikud || r == text
  {
    if IsBlank(t) then (if nikud != "" then nikud else text) else t
  }

  /** The transcribed text is never blank when neither the original nor a
      non-empty nikud text is. */
  lemma FallbackNotBlank(text: string, nikud: string, t: string)
    requires !IsBlank(text)
    requires nikud == "" || !IsBlank(nikud)
    ensures !IsBlank(Fallback(text, nikud, t))
  {
  }

  /** `nikud_text or text` tests emptiness, not blankness: a nikud stage
      that answers with whitespace, followed by an empty transcription,
      gives a blank transcribed text even though the original is not blank. */
  lemma WhitespaceNikudIsKept()
    ensures !IsBlank("שלום")
    ensures Fallback("שלום", " ", "") == " "
    ensures IsBlank(Fallback("שלום", " ", ""))
  {
    assert !IsSpace("שלום"[0]);
  }

  /** The record, without the logging: the stages run in order, each
      consuming the previous stage's output, and the first exception ends
      the pipeline. */
  function Message(stages: Stages, text: string, step: int): (r: MessageResult)
    ensures r.original == text
    ensures r.Success? <==>
      stages.nikud(text).Ok?
      && stages.tts(stages.nikud(text).value, step).Ok?
      && stages.stt(stages.tts(stages.nikud(text).value, step).value).Ok?
    ensures r.Success? ==>
      && stages.nikud(text) == Ok(r.nikud)
      && stages.tts(r.nikud, step) == Ok(r.audioFile)
      && r.transcribed == Fallback(text, r.nikud, stages.stt(r.audioFile).value)
    ensures r.Failed? ==> r.step == step
  {
    match stages.nikud(text)
    case Raised(e) => Failed(text, step, e.msg)
    case Ok(nikud) =>
      match stages.tts(nikud, step)
      case Raised(e) => Failed(text, step, e.msg)
      case Ok(audio) =>
        match stages.stt(audio)
        case Raised(e) => Failed(text, step, e.msg)
        case Ok(t) => Success(text, nikud, audio, Fallback(text, nikud, t))
  }

  /** The message carried by a failed record is the first exception raised. */
  lemma FailedCarriesFirstException(stages: Stages, text: string, step: int)
    ensures stages.nikud(text).Raised? ==>
      Message(stages, text, step) == Failed(text, step, stages.nikud(text).exn.msg)
    ensures stages.nikud(text).Ok? && stages.tts(stages.nikud(text).value, step).Raised? ==>
      Message(stages, text, step) == Failed(text, step, stages.tts(stages.nikud(text).value, step).exn.msg)
    ensures stages.nikud(text).Ok? && stages.tts(stages.nikud(text).value, step).Ok?
            && stages.stt(stages.tts(stages.nikud(text).value, step).value).Raised? ==>
      Message(stages, text, step)
        == Failed(text, step, stages.stt(stages.tts(stages.nikud(text).value, step).value).exn.msg)
  {
  }

  function Status(r: MessageResult): string {
    if r.Success? then "success" else "failed"
  }

  /** The record as the dictionary the caller sees, keys in insertion order. */
  function Items(r: MessageResult): (d: seq<(string, string)>)
    ensures |d| >= 3 && d[0] == ("original", r.original) && d[|d| - 1] == ("status", Status(r))
    ensures r.Success? ==> |d| == 5 && d[1] == ("nikud", r.nikud) && d[2] == ("audio_file", r.audioFile)
                           && d[3] == ("transcribed", r.transcribed)
    ensures r.Failed? ==> d == [("original", r.original), ("error", Error(r)), ("status", "failed")]
  {
    match r
    case Success(o, n, a, t) =>
      [("original", o), ("nikud", n), ("audio_file", a), ("transcribed", t), ("status", "success")]
    case Failed(o, _, _) => [("original", o), ("error", Error(r)), ("status", "failed")]
  }

  /** The data the failure event carries: `{"step": n, "speaker": speaker}`. */
  function FailureData(step: int, speaker: string): Json.Object {
    [("step", Json.JInt(step)), ("speaker", Json.JStr(speaker))]
  }

  /** `process_hebrew_message`: the record, plus its effect on the log
      stores — a success appends the step block to the transcript and leaves
      the call log alone; a failure appends an `ERROR` event to the call log
      and leaves the transcript alone. Nothing is ever removed. */
  function ProcessMessage(stages: Stages, store: Transcript.LogStore, faults: Transcript.Faults,
                          text: string, speaker: string, step: int, now: string)
    : (r: (MessageResult, Transcript.LogStore))
    ensures r.0 == Message(stages, text, step)
    ensures r.0.Success? ==> r.1.callLog == store.callLog
    ensures r.0.Failed? ==> r.1.transcript == store.transcript
    ensures StartsWith(store.transcript, r.1.transcript) && StartsWith(store.callLog, r.1.callLog)
  {
    var m := Message(stages, text, step);
    if m.Success? then
      var e := StepOf(m, speaker, step);
      StartsWithAppend(store.transcript, Lines(Transcript.StepLines(e, now)));
      (m, Transcript.LogConversationStep(store, faults, e, None, now).0)
    else
      var data := Some(FailureData(step, speaker));
      StartsWithAppend(store.callLog, Transcript.EventText(now, "ERROR", Error(m), data));
      (m, Transcript.LogSystemEvent(store, faults, "ERROR", Error(m), data, now).0)
  }

  /** The transcript entry for a successful record. */
  function StepOf(m: MessageResult, speaker: string, step: int): Transcript.StepRecord
    requires m.Success?
  {
    Transcript.StepRecord(step, speaker, m.original, m.nikud, m.audioFile, m.transcribed)
  }

  /** What exactly is written: the step block stamped with the current time
      (the pipeline passes no timestamp) for a success, and for a failure an
      `ERROR` event whose data names the step and the speaker. When the file
      cannot be opened nothing is written. */
  lemma ProcessMessageLogs(stages: Stages, store: Transcript.LogStore, faults: Transcript.Faults,
                           text: string, speaker: string, step: int, now: string)
    ensures var r := ProcessMessage(stages, store, faults, text, speaker, step, now);
      r.0.Success? && faults.transcript.None? ==>
        r.1.transcript == store.transcript + Lines(Transcript.StepLines(StepOf(r.0, speaker, step), now))
    ensures var r := ProcessMessage(stages, store, faults, text, speaker, step, now);
      r.0.Failed? && faults.callLog.None? ==>
        r.1.callLog == store.callLog + Transcript.EventText(now, "ERROR", Error(r.0), Some(FailureData(step, speaker)))
    ensures faults.transcript.Some? && faults.callLog.Some? ==>
      ProcessMessage(stages, store, faults, text, speaker, step, now).1 == store
  {
  }

  // ---------------------------------------------------------------------------
  // The stage models plugged in
  // ---------------------------------------------------------------------------

  /** The environments of the three stage models. `ids(n)` are the
      identifiers the speech stage would draw for step `n`. */
  datatype Tools = Tools(
    nikudEnv: Nikud.NikudEnv, ttsEnv: Tts.TtsEnv, sttEnv: Stt.SttEnv,
    ffmpegOnPath: bool, ids: int -> Tts.Ids)

  /** The pipeline as `crew.py` wires it: each stage is the modelled tool
      function, which never raises. */
  function Wired(tools: Tools): Stages {
    Stages(
      s => Ok(Nikud.AddNikud(tools.nikudEnv, s)),
      (s, n) => Ok(Tts.Convert(tools.ttsEnv, tools.ffmpegOnPath, s, Some(n), tools.ids(n))),
      p => Ok(Stt.Transcribe(tools.sttEnv, tools.ffmpegOnPath, p)))
  }

  /** With the real stages every message succeeds; the audio is synthesised
      from the nikud text, the transcription is taken from that audio, and
      the fallback applies exactly when the transcription is empty. */
  lemma WiredMessage(tools: Tools, text: string, step: int)
    ensures Message(Wired(tools), text, step).Success?
    ensures Message(Wired(tools), text, step).nikud == Nikud.AddNikud(tools.nikudEnv, text)
    ensures Message(Wired(tools), text, step).audioFile ==
      Tts.Convert(tools.ttsEnv, tools.ffmpegOnPath, Message(Wired(tools), text, step).nikud, Some(step), tools.ids(step))
    ensures var heard := Stt.Transcribe(tools.sttEnv, tools.ffmpegOnPath, Message(Wired(tools), text, step).audioFile);
      Message(Wired(tools), text, step).transcribed ==
        if heard == "" then Fallback(text, Message(Wired(tools), text, step).nikud, "") else heard
  {
    var r := Message(Wired(tools), text, step);
    Stt.TranscribeIsStripped(tools.sttEnv, tools.ffmpegOnPath, r.audioFile);
  }
}

=== FILE: session.dfy ===
/** The call-session loop (`run_conversation_simulation` in `crew.py`) and
    the crew's construction: a fixed six-turn cancellation call is cut to the
    configured number of turns, each turn goes through the message pipeline
    until one fails, and a summary judged on the number of successful turns
    closes the transcript. */
module Session {
  import opened Wrappers
  import opened Text
  import Transcript
  import Pipeline
  import AgentConfig

  /** One scripted turn of the call. */
  datatype Turn = Turn(speaker: string, text: string)

  /** The demonstration call: a customer cancelling a television subscription. */
  function Script(): (s: seq<Turn>)
    ensures |s| == 6
  {
    [ Turn("customer", Line1), Turn("support", Line2), Turn("customer", Line3),
      Turn("support", Line4), Turn("customer", Line5), Turn("support", Line6) ]
  }
  const Line1 := "שלום, אני רוצה לבטל את המנוי לטלוויזיה שלי"
  const Line2 := "שלום, אני מבין שאתה רוצה לבטל את המנוי. האם אתה יכול להסביר לי מה הבעיה?"
  const Line3 := "החשבונות יקרים מדי והשירות לא טוב"
  const Line4 := "אני מבין את הבעיה. בואו נראה איך אפשר לעזור לך. יש לנו הצעות מיוחדות"
  const Line5 := "לא מעוניין, אני רוצה לבטל עכשיו"
  const Line6 := "בסדר, אני אעבד את הביטול. תקבל אישור במייל תוך 24 שעות"

  /** `MAX_CONVERSATION_TURNS` when the variable is unset. */
  const DefaultMaxTurns := 6

  /** Successful turns needed for the call to count as resolved. */
  const SuccessThreshold := 4

  /** Python's `s[:k]`: a negative bound counts from the end. */
  function SliceTo<T>(s: seq<T>, k: int): (r: seq<T>)
    ensures k >= 0 ==> |r| == (if k < |s| then k else |s|)
    ensures k < 0 ==> |r| == (if -k < |s| then |s| + k else 0)
    ensures r == s[..|r|]
  {
    var n := if k >= 0 then (if k < |s| then k else |s|) else (if -k < |s| then |s| + k else 0);
    s[..n]
  }

  // ---------------------------------------------------------------------------
  // The loop
  // ---------------------------------------------------------------------------

  /** The loop body applied to `turns`, numbered from `first`: each turn is
      processed with the clock reading for its step and with `faults(step)`,
      what opening the log files does during that step's call; a failed turn
      ends the loop after it is recorded. */
  function RunTurns(stages: Pipeline.Stages, store: Transcript.LogStore, faults: int -> Transcript.Faults,
                    turns: seq<Turn>, first: int, clock: int -> string)
    : (r: (seq<Pipeline.MessageResult>, Transcript.LogStore))
    ensures |r.0| <= |turns|
    ensures StartsWith(store.transcript, r.1.transcript) && StartsWith(store.callLog, r.1.callLog)
    decreases |turns|
  {
    if turns == [] then ([], store)
    else
      var step := Pipeline.ProcessMessage(stages, store, faults(first), turns[0].text, turns[0].speaker, first, clock(first));
      if step.0.Failed? then ([step.0], step.1)
      else
        var rest := RunTurns(stages, step.1, faults, turns[1..], first + 1, clock);
        StartsWithTransitive(store.transcript, step.1.transcript, rest.1.transcript);
        StartsWithTransitive(store.callLog, step.1.callLog, rest.1.callLog);
        ([step.0] + rest.0, rest.1)
  }

  /** The logs as they would stand if every turn were processed, none
      stopping the loop. */
  function LogTurns(stages: Pipeline.Stages, store: Transcript.LogStore, faults: int -> Transcript.Faults,
                    turns: seq<Turn>, first: int, clock: int -> string): (r: Transcript.LogStore)
    ensures StartsWith(store.transcript, r.transcript) && StartsWith(store.callLog, r.callLog)
    decreases |turns|
  {
    if turns == [] then store
    else
      var step := Pipeline.ProcessMessage(stages, store, faults(first), turns[0].text, turns[0].speaker, first, clock(first));
      var rest := LogTurns(stages, step.1, faults, turns[1..], first + 1, clock);
      StartsWithTransitive(store.transcript, step.1.transcript, rest.transcript);
      StartsWithTransitive(store.callLog, step.1.callLog, rest.callLog);
      rest
  }

  /** The loop's logs hold exactly the writes of the turns it kept: the
      turns after the first failure are neither processed nor logged. */
  lemma {:induction false} RunTurnsLogsKeptTurns(stages: Pipeline.Stages, store: Transcript.LogStore,
                                                 faults: int -> Transcript.Faults, turns: seq<Turn>, first: int,
                                                 clock: int -> string)
    ensures var run := RunTurns(stages, store, faults, turns, first, clock);
      run.1 == LogTurns(stages, store, faults, turns[..|run.0|], first, clock)
    decreases |turns|
  {
    if turns != [] {
      var step := Pipeline.ProcessMessage(stages, store, faults(first), turns[0].text, turns[0].speaker, first, clock(first));
      var run := RunTurns(stages, store, faults, turns, first, clock);
      var kept := turns[..|run.0|];
      assert kept[0] == turns[0];
      if step.0.Failed? {
        assert kept[1..] == [];
      } else {
        var rest := RunTurns(stages, step.1, faults, turns[1..], first + 1, clock);
        RunTurnsLogsKeptTurns(stages, step.1, faults, turns[1..], first + 1, clock);
        assert kept[1..] == turns[1..][..|rest.0|];
      }
    }
  }

  /** Every turn's record as if the loop never stopped. */
  function AllMessages(stages: Pipeline.Stages, turns: seq<Turn>, first: int): (rs: seq<Pipeline.MessageResult>)
    ensures |rs| == |turns|
    decreases |turns|
  {
    if turns == [] then []
    else [Pipeline.Message(stages, turns[0].text, first)] + AllMessages(stages, turns[1..], first + 1)
  }

  /** The record for turn `i` is the pipeline run on that turn's text with
      step number `first + i`: turns are numbered consecutively in script
      order. */
  lemma {:induction false} AllMessagesAt(stages: Pipeline.Stages, turns: seq<Turn>, first: int, i: int)
    requires 0 <= i < |turns|
    ensures AllMessages(stages, turns, first)[i] == Pipeline.Message(stages, turns[i].text, first + i)
    decreases |turns|
  {
    if i > 0 {
      AllMessagesAt(stages, turns[1..], first + 1, i - 1);
      assert turns[1..][i - 1] == turns[i];
    }
  }

  /** The records up to and including the first failure: a prefix in which
      at most one record failed, and that one is last; anything shorter than
      the input ends in a failure. */
  function UpToFirstFailure(rs: seq<Pipeline.MessageResult>): (r: seq<Pipeline.MessageResult>)
    ensures |r| <= |rs| && r == rs[..|r|]
    ensures forall i :: 0 <= i < |r| - 1 ==> r[i].Success?
    ensures |r| < |rs| ==> r != [] && r[|r| - 1].Failed?
  {
    if rs == [] then []
    else if rs[0].Failed? then [rs[0]]
    else
      var rest := UpToFirstFailure(rs[1..]);
      var r := [rs[0]] + rest;
      forall i | 1 <= i < |r| - 1 ensures r[i].Success? {
        assert r[i] == rest[i - 1];
      }
      assert rest == rs[1..][..|rest|];
      r
  }

  /** When no record failed nothing is cut. */
  lemma {:induction false} UpToFirstFailureAllSuccess(rs: seq<Pipeline.MessageResult>)
    requires forall i :: 0 <= i < |rs| ==> rs[i].Success?
    ensures UpToFirstFailure(rs) == rs
  {
    if rs != [] {
      assert forall i :: 0 <= i < |rs| - 1 ==> rs[1..][i] == rs[i + 1];
      UpToFirstFailureAllSuccess(rs[1..]);
    }
  }

  /** The loop's records are exactly the independent per-turn records cut
      after the first failure. */
  lemma {:induction false} RunTurnsStopsAtFirstFailure(stages: Pipeline.Stages, store: Transcript.LogStore,
                                                       faults: int -> Transcript.Faults, turns: seq<Turn>, first: int,
                                                       clock: int -> string)
    ensures RunTurns(stages, store, faults, turns, first, clock).0 == UpToFirstFailure(AllMessages(stages, turns, first))
    decreases |turns|
  {
    if turns != [] {
      var step := Pipeline.ProcessMessage(stages, store, faults(first), turns[0].text, turns[0].speaker, first, clock(first));
      var rest := AllMessages(stages, turns[1..], first + 1);
      assert AllMessages(stages, turns, first) == [step.0] + rest;
      if step.0.Success? {
        assert ([step.0] + rest)[1..] == rest;
        RunTurnsStopsAtFirstFailure(stages, step.1, faults, turns[1..], first + 1, clock);
      }
    }
  }

  /** `sum(1 for r in results if r["status"] == "success")`. */
  function CountSuccess(rs: seq<Pipeline.MessageResult>): (n: nat)
    ensures n <= |rs|
    ensures n == |rs| <==> forall i :: 0 <= i < |rs| ==> rs[i].Success?
  {
    if rs == [] then 0
    else
      var rest := CountSuccess(rs[1..]);
      assert forall i :: 1 <= i < |rs| ==> rs[i] == rs[1..][i - 1];
      (if rs[0].Success? then 1 else 0) + rest
  }

  /** What the loop produces: every record is a success except possibly the
      last, so the success count is the number of records, less one when the
      loop stopped on a failure. */
  lemma {:induction false} CountAfterEarlyStop(rs: seq<Pipeline.MessageResult>)
    requires forall i :: 0 <= i < |rs| - 1 ==> rs[i].Success?
    ensures rs != [] && rs[|rs| - 1].Failed? ==> CountSuccess(rs) == |rs| - 1
    ensures !(rs != [] && rs[|rs| - 1].Failed?) ==> CountSuccess(rs) == |rs|
  {
    if rs != [] {
      CountAfterEarlyStop(rs[1..]);
    }
  }

  // ---------------------------------------------------------------------------
  // The session
  // ---------------------------------------------------------------------------

  const Resolved := "Cancellation processed"
  const Incomplete := "Call incomplete"

  /** The summary written for a list of records: one threshold decides the
      outcome, the satisfaction and the resolved flag together. */
  function SummaryOf(results: seq<Pipeline.MessageResult>): (s: Transcript.Summary)
    ensures s.totalSteps == |results|
    ensures s.resolved <==> CountSuccess(results) >= SuccessThreshold
    ensures s.outcome == (if s.resolved then Resolved else Incomplete)
    ensures s.satisfaction == (if s.resolved then "Resolved" else "Unresolved")
    ensures s.notes == "Processed " + IntToString(CountSuccess(results)) + "/" + IntToString(|results|) + " steps successfully"
  {
    var ok := CountSuccess(results);
    var resolved := ok >= SuccessThreshold;
    Transcript.Summary(
      |results|,
      if resolved then Resolved else Incomplete,
      if resolved then "Resolved" else "Unresolved",
      resolved,
      "Processed " + IntToString(ok) + "/" + IntToString(|results|) + " steps successfully")
  }

  /** The dictionary a completed simulation returns (its `status` is
      always `completed`). */
  datatype SessionResult = SessionResult(
    totalSteps: nat, successfulSteps: nat, outcome: string, results: seq<Pipeline.MessageResult>)

  /** The session over a given list of turns, numbered from 1: the
      early-stopping loop, then the summary appended to the transcript at
      `summaryTime`, its own file access failing as `summaryFaults` says. */
  function Converse(stages: Pipeline.Stages, turns: seq<Turn>, store: Transcript.LogStore,
                    faults: int -> Transcript.Faults, summaryFaults: Transcript.Faults,
                    clock: int -> string, summaryTime: string)
    : (r: (SessionResult, Transcript.LogStore))
    ensures r.0.totalSteps == |r.0.results| <= |turns|
    ensures r.0.results == UpToFirstFailure(AllMessages(stages, turns, 1))
    ensures r.0.successfulSteps == CountSuccess(r.0.results)
    ensures r.0.outcome == Resolved <==> r.0.successfulSteps >= SuccessThreshold
    ensures r.0.outcome == Resolved || r.0.outcome == Incomplete
    ensures forall i :: 0 <= i < |r.0.results| - 1 ==> r.0.results[i].Success?
    ensures StartsWith(store.transcript, r.1.transcript) && StartsWith(store.callLog, r.1.callLog)
    ensures r.1 == Transcript.CreateCallSummary(RunTurns(stages, store, faults, turns, 1, clock).1,
                                                summaryFaults, SummaryOf(r.0.results), summaryTime).0
  {
    var run := RunTurns(stages, store, faults, turns, 1, clock);
    RunTurnsStopsAtFirstFailure(stages, store, faults, turns, 1, clock);
    var summary := SummaryOf(run.0);
    var closed := Transcript.CreateCallSummary(run.1, summaryFaults, summary, summaryTime);
    SummaryExtends(run.1, summaryFaults, summary, summaryTime);
    StartsWithTransitive(store.transcript, run.1.transcript, closed.0.transcript);
    (SessionResult(|run.0|, CountSuccess(run.0), summary.outcome, run.0), closed.0)
  }

  /** Writing the summary only appends to the transcript and leaves the call
      log as it was. */
  lemma SummaryExtends(store: Transcript.LogStore, faults: Transcript.Faults, s: Transcript.Summary, now: string)
    ensures StartsWith(store.transcript, Transcript.CreateCallSummary(store, faults, s, now).0.transcript)
    ensures Transcript.CreateCallSummary(store, faults, s, now).0.callLog == store.callLog
  {
    StartsWithAppend(store.transcript, Lines(Transcript.SummaryLines(s, now)));
  }

  /** `run_conversation_simulation`: the session over `script[:maxTurns]`. */
  function RunConversation(stages: Pipeline.Stages, maxTurns: int, store: Transcript.LogStore,
                           faults: int -> Transcript.Faults, summaryFaults: Transcript.Faults,
                           clock: int -> string, summaryTime: string)
    : (r: (SessionResult, Transcript.LogStore))
    ensures r.0.results == UpToFirstFailure(AllMessages(stages, SliceTo(Script(), maxTurns), 1))
    ensures |r.0.results| <= |SliceTo(Script(), maxTurns)|
    ensures r.0.successfulSteps == CountSuccess(r.0.results)
    ensures r.0.outcome == Resolved <==> r.0.successfulSteps >= SuccessThreshold
  {
    Converse(stages, SliceTo(Script(), maxTurns), store, faults, summaryFaults, clock, summaryTime)
  }

  /** The number of turns processed at most: `min(maxTurns, 6)` for a
      non-negative cap, and the script less `-maxTurns` turns for a negative
      one, as Python slicing does. */
  lemma TurnCap(maxTurns: int)
    ensures 0 <= maxTurns <= 6 ==> |SliceTo(Script(), maxTurns)| == maxTurns
    ensures maxTurns >= 6 ==> SliceTo(Script(), maxTurns) == Script()
    ensures -6 <= maxTurns < 0 ==> |SliceTo(Script(), maxTurns)| == 6 + maxTurns
    ensures maxTurns <= -6 ==> SliceTo(Script(), maxTurns) == []
  {
  }

  /** With the stage models wired in, no turn fails: the session processes
      every sliced turn and all of them succeed. */
  lemma WiredSessionCompletes(tools: Pipeline.Tools, maxTurns: int, store: Transcript.LogStore,
                              faults: int -> Transcript.Faults, summaryFaults: Transcript.Faults,
                              clock: int -> string, summaryTime: string)
    ensures var r := RunConversation(Pipeline.Wired(tools), maxTurns, store, faults, summaryFaults, clock, summaryTime).0;
      |r.results| == |SliceTo(Script(), maxTurns)| && r.successfulSteps == |r.results|
  {
    var stages := Pipeline.Wired(tools);
    var turns := SliceTo(Script(), maxTurns);
    var all := AllMessages(stages, turns, 1);
    forall i | 0 <= i < |all| ensures all[i].Success? {
      AllMessagesAt(stages, turns, 1, i);
      Pipeline.WiredMessage(tools, turns[i].text, 1 + i);
    }
    UpToFirstFailureAllSuccess(all);
  }

  /** The configured default of six turns resolves the call; a three-turn
      cap leaves it incomplete; a cap of -2 keeps four turns and resolves it. */
  lemma WiredScenarios(tools: Pipeline.Tools, store: Transcript.LogStore,
                       faults: int -> Transcript.Faults, summaryFaults: Transcript.Faults,
                       clock: int -> string, summaryTime: string)
    ensures RunConversation(Pipeline.Wired(tools), DefaultMaxTurns, store, faults, summaryFaults, clock, summaryTime).0.outcome == Resolved
    ensures RunConversation(Pipeline.Wired(tools), 3, store, faults, summaryFaults, clock, summaryTime).0.outcome == Incomplete
    ensures RunConversation(Pipeline.Wired(tools), -2, store, faults, summaryFaults, clock, summaryTime).0.outcome == Resolved
  {
    WiredSessionCompletes(tools, DefaultMaxTurns, store, faults, summaryFaults, clock, summaryTime);
    WiredSessionCompletes(tools, 3, store, faults, summaryFaults, clock, summaryTime);
    WiredSessionCompletes(tools, -2, store, faults, summaryFaults, clock, summaryTime);
  }

  // ---------------------------------------------------------------------------
  // Construction
  // ---------------------------------------------------------------------------

  /** The state `__init__` leaves the crew in. */
  datatype Crew = Crew(conversationStep: int, maxTurns: int, agents: map<string, AgentConfig.Yaml>)

  /** `HebrewCallCenterCrew.__init__`: no steps taken yet, the sanitised
      agent configuration, and a fresh call session in the log stores. */
  function NewCrew(loaded: Option<AgentConfig.Yaml>, maxTurns: int, store: Transcript.LogStore,
                   faults: Transcript.Faults, now: string): (r: (Crew, Transcript.LogStore))
    ensures r.0.conversationStep == 0 && r.0.maxTurns == maxTurns
    ensures forall a :: a in r.0.agents ==>
      !(r.0.agents[a].YMap? && AgentConfig.ToolsKey in r.0.agents[a].entries)
    ensures loaded.Some? && loaded.value.YMap? ==> r.0.agents.Keys == loaded.value.entries.Keys
    ensures r.0.agents == AgentConfig.SanitizeLoaded(loaded)
    ensures faults == Transcript.NoFaults ==> r.1 == Transcript.InitializeSession(Transcript.LogStore("", ""), faults, now).0
    ensures faults.transcript.Some? ==> r.1 == store
    ensures faults.transcript.None? ==> r.1.transcript == Lines(Transcript.HeaderLines(Transcript.TranscriptTitle, now))
    ensures faults.transcript.None? && faults.callLog.Some? ==> r.1.callLog == store.callLog
  {
    var agents := AgentConfig.SanitizeLoaded(loaded);
    Transcript.InitializeForgetsHistory(store, Transcript.LogStore("", ""), now);
    (Crew(0, maxTurns, agents), Transcript.InitializeSession(store, faults, now).0)
  }
}

=== FILE: stt.dfy ===
/** The speech-recognition stage (`tools/stt_tool.py`): Whisper transcribes
    a Hebrew audio file. The plain variant never fails — every problem gives
    the empty string; the detailed variant reports problems as an error
    record instead. */
module Stt {
  import opened Wrappers
  import opened Text
  import Json

  /** The fields of Whisper's result dictionary the stage reads; each may be
      missing. `segments` is the length of the segment list. */
  datatype WhisperOutput = WhisperOutput(text: Option<string>, language: Option<string>, segments: Option<nat>)

  /** What the recogniser finds around it. */
  datatype SttEnv = SttEnv(
    /** `os.path.exists` */
    fileExists: string -> bool,
    /** the module-level `whisper.load_model("small")` succeeded */
    modelLoaded: bool,
    /** `whisper_model.transcribe(path, language="he", task="transcribe")` */
    transcribe: string -> Outcome<WhisperOutput>,
    /** the same call with word timestamps and temperature 0 */
    transcribeDetailed: string -> Outcome<WhisperOutput>)

  /** The plain call gets as far as the model. `ffmpegOnPath` is
      `shutil.which("ffmpeg") is not None`. */
  predicate ModelRuns(env: SttEnv, ffmpegOnPath: bool, path: string) {
    env.fileExists(path) && env.modelLoaded && ffmpegOnPath
  }

  /** `transcribe_hebrew_audio_to_text_impl`: the stripped transcription, or
      the empty string when the file is missing, the model is not loaded,
      FFmpeg is absent, the call raises, or the result has no text (indexing
      it raises `KeyError`, which the same handler catches). */
  function Transcribe(env: SttEnv, ffmpegOnPath: bool, path: string): (r: string)
    ensures !ModelRuns(env, ffmpegOnPath, path) ==> r == ""
    ensures ModelRuns(env, ffmpegOnPath, path) ==>
      match env.transcribe(path)
      case Ok(o) => r == (if o.text.Some? then Strip(o.text.value) else "")
      case Raised(_) => r == ""
    ensures r == [] || (!IsSpace(r[0]) && !IsSpace(r[|r| - 1]))
  {
    if !env.fileExists(path) then ""
    else if !env.modelLoaded then ""
    else if !ffmpegOnPath then ""
    else
      match env.transcribe(path)
      case Raised(_) => ""
      case Ok(o) =>
        match o.text
        case None => ""
        case Some(t) => Strip(t)
  }

  /** The transcription never carries surrounding whitespace, and a
      transcription of only whitespace comes back as the empty string: the
      caller's blank test is an emptiness test. */
  lemma TranscribeIsStripped(env: SttEnv, ffmpegOnPath: bool, path: string)
    ensures Strip(Transcribe(env, ffmpegOnPath, path)) == Transcribe(env, ffmpegOnPath, path)
    ensures IsBlank(Transcribe(env, ffmpegOnPath, path)) <==> Transcribe(env, ffmpegOnPath, path) == ""
  {
    var r := Transcribe(env, ffmpegOnPath, path);
    if ModelRuns(env, ffmpegOnPath, path) && env.transcribe(path).Ok? && env.transcribe(path).value.text.Some? {
      StripIdempotent(env.transcribe(path).value.text.value);
    }
    if r != [] {
      assert !IsSpace(r[0]);
    }
  }

  /** `transcribe_multiple_audio_files`: one transcription per path, in order. */
  method TranscribeMany(env: SttEnv, ffmpegOnPath: bool, paths: seq<string>) returns (results: seq<string>)
    ensures |results| == |paths|
    ensures forall i :: 0 <= i < |paths| ==> results[i] == Transcribe(env, ffmpegOnPath, paths[i])
  {
    results := [];
    var i := 0;
    while i < |paths|
      invariant 0 <= i <= |paths|
      invariant |results| == i
      invariant forall j :: 0 <= j < i ==> results[j] == Transcribe(env, ffmpegOnPath, paths[j])
    {
      var text := Transcribe(env, ffmpegOnPath, paths[i]);
      assert (results + [text])[..i] == results;
      results := results + [text];
      i := i + 1;
    }
  }

  // ---------------------------------------------------------------------------
  // Transcription with metadata
  // ---------------------------------------------------------------------------

  /** The dictionary `transcribe_with_confidence_impl` returns. A `Failure`
      has an `error` key, plus `"success": False` only when it comes from a
      caught exception (`flagged`). */
  datatype Confidence =
    | Transcribed(text: string, language: string, segments: nat)
    | Failure(error: string, flagged: bool)

  const DefaultLanguage := "he"

  /** `str(KeyError('text'))`: the key in quotes. */
  const MissingTextMessage := "'text'"

  lemma MissingTextIsKeyRepr()
    ensures Repr("text") == MissingTextMessage
  {
    ReprPlain("text");
  }

  /** `transcribe_with_confidence_impl`. Unlike the plain variant it does not
      look for FFmpeg. */
  function TranscribeWithConfidence(env: SttEnv, path: string): (c: Confidence)
    ensures !env.fileExists(path) ==> c == Failure("Audio file not found: " + path, false)
    ensures env.fileExists(path) && !env.modelLoaded ==> c == Failure("Whisper model not loaded", false)
    ensures env.fileExists(path) && env.modelLoaded ==>
      match env.transcribeDetailed(path)
      case Raised(e) => c == Failure(e.msg, true)
      case Ok(o) =>
        if o.text.None? then c == Failure(MissingTextMessage, true)
        else c.Transcribed? && c.text == Strip(o.text.value)
             && c.language == o.language.GetOr(DefaultLanguage)
             && c.segments == o.segments.GetOr(0)
  {
    if !env.fileExists(path) then Failure("Audio file not found: " + path, false)
    else if !env.modelLoaded then Failure("Whisper model not loaded", false)
    else
      match env.transcribeDetailed(path)
      case Raised(e) => Failure(e.msg, true)
      case Ok(o) =>
        match o.text
        case None => Failure(MissingTextMessage, true)
        case Some(t) => Transcribed(Strip(t), o.language.GetOr(DefaultLanguage), o.segments.GetOr(0))
  }

  /** The dictionary as the caller sees it, keys in insertion order. */
  function ConfidenceItems(c: Confidence): (d: Json.Object)
    ensures c.Transcribed? ==>
      && |d| == 4 && d[0] == ("text", Json.JStr(c.text))
      && d[1] == ("language", Json.JStr(c.language)) && d[2] == ("segments", Json.JInt(c.segments))
      && d[3] == ("success", Json.JBool(true))
    ensures c.Failure? ==> |d| >= 1 && d[0] == ("error", Json.JStr(c.error))
    ensures c.Failure? ==> (|d| == 2 <==> c.flagged)
    ensures c.Failure? && c.flagged ==> d[1] == ("success", Json.JBool(false))
    ensures c.Failure? && !c.flagged ==> d == [("error", Json.JStr(c.error))]
    ensures forall k :: 0 <= k < |d| ==> d[k].1 != Json.JBool(true) || c.Transcribed?
  {
    match c
    case Transcribed(t, l, n) =>
      [("text", Json.JStr(t)), ("language", Json.JStr(l)), ("segments", Json.JInt(n)), ("success", Json.JBool(true))]
    case Failure(e, flagged) =>
      [("error", Json.JStr(e))] + (if flagged then [("success", Json.JBool(false))] else [])
  }

  /** The two variants agree: when the model runs and both calls see the same
      text, the detailed result carries exactly the plain transcription; and
      every failure of the detailed variant is an empty plain transcription
      (the detailed one does not look for FFmpeg, so it may succeed where the
      plain one gives up). */
  lemma ConfidenceAgreesWithTranscribe(env: SttEnv, ffmpegOnPath: bool, path: string)
    requires env.transcribe(path).Ok? <==> env.transcribeDetailed(path).Ok?
    requires env.transcribe(path).Ok? ==>
      env.transcribe(path).value.text == env.transcribeDetailed(path).value.text
    ensures TranscribeWithConfidence(env, path).Failure? ==> Transcribe(env, ffmpegOnPath, path) == ""
    ensures ffmpegOnPath && TranscribeWithConfidence(env, path).Transcribed? ==>
      TranscribeWithConfidence(env, path).text == Transcribe(env, ffmpegOnPath, path)
  {
  }
}

=== FILE: text.dfy ===
/** The pieces of Python string behaviour the call-center code relies on:
    `str.isspace`/`str.strip`, truthiness of a string, `str(int)`, `'=' * n`,
    and the line structure of the text the log stores hold. */
module Text {
  import opened Wrappers

  /** Python's `str.isspace()` for one character: the ASCII whitespace and
      separators plus the Unicode space separators. */
  predicate IsSpace(c: char) {
    || ('\t' <= c <= '\r')
    || ('\U{1C}' <= c <= ' ')
    || c == '\U{85}' || c == '\U{A0}' || c == '\U{1680}'
    || ('\U{2000}' <= c <= '\U{200A}')
    || c == '\U{2028}' || c == '\U{2029}' || c == '\U{202F}' || c == '\U{205F}' || c == '\U{3000}'
  }

  /** Every character is whitespace (so the empty string is blank). */
  predicate IsBlank(s: string) {
    forall i :: 0 <= i < |s| ==> IsSpace(s[i])
  }

  predicate StartsWith(prefix: string, s: string) {
    |prefix| <= |s| && s[..|prefix|] == prefix
  }

  /** Appending keeps what was there: `a` is a prefix of `a + b`. */
  lemma StartsWithAppend(a: string, b: string)
    ensures StartsWith(a, a + b)
  {
    assert (a + b)[..|a|] == a;
  }

  lemma StartsWithTransitive(a: string, b: string, c: string)
    requires StartsWith(a, b) && StartsWith(b, c)
    ensures StartsWith(a, c)
  {
    assert c[..|a|] == c[..|b|][..|a|];
  }

  /** Number of whitespace characters at the front of `s`. */
  function LeadingSpaces(s: string): (n: nat)
    ensures n <= |s|
    ensures IsBlank(s[..n])
    ensures n < |s| ==> !IsSpace(s[n])
  {
    if |s| > 0 && IsSpace(s[0]) then
      var k := LeadingSpaces(s[1..]);
      assert s[1..][..k] == s[1..k + 1];
      1 + k
    else 0
  }

  /** Number of whitespace characters at the back of `s`. */
  function TrailingSpaces(s: string): (n: nat)
    ensures n <= |s|
    ensures IsBlank(s[|s| - n..])
    ensures n < |s| ==> !IsSpace(s[|s| - n - 1])
  {
    var n := SpacesBefore(s, |s|);
    var tail := s[|s| - n..];
    forall i | 0 <= i < |tail| ensures IsSpace(tail[i]) {
      assert tail[i] == s[|s| - n + i];
    }
    n
  }

  /** The number of whitespace characters just before index `j`. */
  function SpacesBefore(s: string, j: nat): (n: nat)
    requires j <= |s|
    ensures n <= j
    ensures forall i :: j - n <= i < j ==> IsSpace(s[i])
    ensures n < j ==> !IsSpace(s[j - n - 1])
  {
    if j > 0 && IsSpace(s[j - 1]) then 1 + SpacesBefore(s, j - 1) else 0
  }

  /** Python's `s.strip()` with no argument. */
  function Strip(s: string): (r: string)
    ensures exists i, j :: 0 <= i <= j <= |s| && r == s[i..j] && IsBlank(s[..i]) && IsBlank(s[j..])
    ensures r == [] || (!IsSpace(r[0]) && !IsSpace(r[|r| - 1]))
    ensures r == [] <==> IsBlank(s)
  {
    var i := LeadingSpaces(s);
    var t := s[i..];
    var k := TrailingSpaces(t);
    var j := |s| - k;
    assert t[|t| - k..] == s[j..];
    assert i < j ==> s[i] == t[0] && s[j - 1] == t[|t| - k - 1];
    BlankStrip(s, i, j);
    assert s[i..j] == s[i..j] && IsBlank(s[..i]) && IsBlank(s[j..]);
    s[i..j]
  }

  lemma BlankStrip(s: string, i: nat, j: nat)
    requires i <= j <= |s|
    requires IsBlank(s[..i]) && IsBlank(s[j..])
    requires i < j ==> !IsSpace(s[i])
    ensures IsBlank(s) <==> i == j
  {
    if i == j {
      forall k | 0 <= k < |s| ensures IsSpace(s[k]) {
        if k < i { assert s[..i][k] == s[k]; } else { assert s[j..][k - j] == s[k]; }
      }
    }
  }

  /** Stripping twice is stripping once. */
  lemma StripIdempotent(s: string)
    ensures Strip(Strip(s)) == Strip(s)
  {
    var r := Strip(s);
    assert LeadingSpaces(r) == 0;
    assert TrailingSpaces(r) == 0;
  }

  /** `'=' * n`. */
  function Rule(n: nat): (r: string)
    ensures |r| == n
    ensures forall i :: 0 <= i < n ==> r[i] == '='
    ensures NoNewline(r)
  {
    seq(n, _ => '=')
  }

  // ---------------------------------------------------------------------------
  // str(int)
  // ---------------------------------------------------------------------------

  predicate IsDigit(c: char) {
    '0' <= c <= '9'
  }

  predicate AllDigits(s: string) {
    forall i :: 0 <= i < |s| ==> IsDigit(s[i])
  }

  function DigitChar(d: nat): (c: char)
    requires d < 10
    ensures IsDigit(c)
  {
    "0123456789"[d]
  }

  function DigitValue(c: char): (d: nat)
    requires IsDigit(c)
    ensures d < 10
  {
    (c as int) - ('0' as int)
  }

  /** Decimal value of a digit string (most significant digit first). */
  function ParseDigits(s: string): nat
    requires AllDigits(s)
  {
    if s == [] then 0 else 10 * ParseDigits(s[..|s| - 1]) + DigitValue(s[|s| - 1])
  }

  /** Python's `str(n)` for a non-negative integer: no sign, no leading zero. */
  function NatToString(n: nat): (s: string)
    ensures |s| >= 1 && AllDigits(s)
    ensures s[0] == '0' <==> n == 0
  {
    if n < 10 then [DigitChar(n)] else NatToString(n / 10) + [DigitChar(n % 10)]
  }

  /** Reading the digits back gives the number: `str` on naturals loses nothing. */
  lemma {:induction false} ParseNatToString(n: nat)
    ensures ParseDigits(NatToString(n)) == n
  {
    var s := NatToString(n);
    if n >= 10 {
      ParseNatToString(n / 10);
      assert s[..|s| - 1] == NatToString(n / 10);
      assert DigitValue(DigitChar(n % 10)) == n % 10;
    } else {
      assert DigitValue(DigitChar(n)) == n;
    }
  }

  /** Python's `str(i)` for any integer. */
  function IntToString(i: int): (s: string)
    ensures |s| >= 1 && IsDigit(s[|s| - 1])
    ensures s[0] == '-' <==> i < 0
    ensures forall k :: 0 <= k < |s| ==> s[k] == '-' || IsDigit(s[k])
  {
    if i < 0 then "-" + NatToString(-i) else NatToString(i)
  }

  /** Distinct naturals print differently. */
  lemma NatToStringInjective(m: nat, n: nat)
    requires NatToString(m) == NatToString(n)
    ensures m == n
  {
    ParseNatToString(m);
    ParseNatToString(n);
  }

  /** Distinct integers print differently. */
  lemma IntToStringInjective(a: int, b: int)
    requires IntToString(a) == IntToString(b)
    ensures a == b
  {
    ParseIntToString(a);
    ParseIntToString(b);
  }

  /** Python's `int(s)` restricted to what `str(int)` produces. */
  function ParseInt(s: string): Option<int> {
    if |s| >= 2 && s[0] == '-' && AllDigits(s[1..]) then Some(0 - ParseDigits(s[1..]))
    else if |s| >= 1 && AllDigits(s) then Some(ParseDigits(s))
    else None
  }

  lemma ParseIntToString(i: int)
    ensures ParseInt(IntToString(i)) == Some(i)
  {
    if i < 0 {
      ParseNegative(-i);
    } else {
      ParseNonNegative(i);
    }
  }

  lemma ParseNegative(n: nat)
    requires n > 0
    ensures ParseInt("-" + NatToString(n)) == Some(-(n as int))
  {
    var s := "-" + NatToString(n);
    assert s[1..] == NatToString(n);
    ParseNatToString(n);
  }

  lemma ParseNonNegative(n: nat)
    ensures ParseInt(NatToString(n)) == Some(n)
  {
    ParseNatToString(n);
  }

  // ---------------------------------------------------------------------------
  // repr(str)
  // ---------------------------------------------------------------------------

  const HexDigits := "0123456789abcdef"

  /** The quote `repr` puts around a string: a double quote when the text
      holds a single quote and no double quote, a single quote otherwise. */
  function ReprQuote(s: string): (q: char)
    ensures q == '\'' || q == '"'
  {
    if '\'' in s && '"' !in s then '"' else '\''
  }

  /** The characters `repr` writes as `\xhh`: the control characters, and
      the Latin-1 characters Python does not count as printable. */
  predicate ReprHex(c: char) {
    c < ' ' || ('\U{7F}' <= c <= '\U{A0}') || c == '\U{AD}'
  }

  /** A character `repr` writes as itself, whichever quote it chose. */
  predicate ReprVerbatim(c: char) {
    c != '\'' && c != '"' && c != '\\' && !ReprHex(c)
  }

  /** How `repr` writes one character inside quotes `q`. */
  function ReprChar(c: char, q: char): string {
    if c == q || c == '\\' then ['\\', c]
    else if c == '\t' then "\\t"
    else if c == '\n' then "\\n"
    else if c == '\r' then "\\r"
    else if ReprHex(c) then "\\x" + [HexDigits[(c as int) / 16], HexDigits[(c as int) % 16]]
    else [c]
  }

  function ReprBody(s: string, q: char): string {
    if s == [] then [] else ReprChar(s[0], q) + ReprBody(s[1..], q)
  }

  /** Python's `repr` of a string, which is also how `str(KeyError(key))`
      shows the key. */
  function Repr(s: string): (r: string)
    ensures |r| >= 2 && r[0] == ReprQuote(s) && r[|r| - 1] == ReprQuote(s)
  {
    [ReprQuote(s)] + ReprBody(s, ReprQuote(s)) + [ReprQuote(s)]
  }

  /** Text without quotes, backslashes or unprintable characters is shown
      as is, in single quotes. */
  lemma ReprPlain(s: string)
    requires forall i :: 0 <= i < |s| ==> ReprVerbatim(s[i])
    ensures Repr(s) == "'" + s + "'"
  {
    ReprBodyVerbatim(s, '\'');
  }

  /** Text holding a single quote but no double quote is shown in double
      quotes, the single quote unescaped. */
  lemma ReprApostrophe(s: string)
    requires '\'' in s
    requires forall i :: 0 <= i < |s| ==> s[i] == '\'' || ReprVerbatim(s[i])
    ensures Repr(s) == "\"" + s + "\""
  {
    ReprBodyVerbatim(s, '"');
  }

  /** `s` with a backslash put before every occurrence of `c`. */
  function EscapeEach(s: string, c: char): (r: string)
    ensures c !in s ==> r == s
    ensures |r| >= |s|
  {
    if s == [] then []
    else (if s[0] == c then ['\\', c] else [s[0]]) + EscapeEach(s[1..], c)
  }

  /** Text holding both quotes is shown in single quotes, each single quote
      escaped with a backslash and every other character unchanged. */
  lemma ReprBothQuotes(s: string)
    requires '\'' in s && '"' in s
    requires forall i :: 0 <= i < |s| ==> s[i] == '\'' || s[i] == '"' || ReprVerbatim(s[i])
    ensures Repr(s) == "'" + EscapeEach(s, '\'') + "'"
  {
    ReprBodyEscapes(s, '\'');
  }

  /** Over quotes and verbatim characters, `repr`'s body escapes the chosen
      quote and nothing else. */
  lemma {:induction false} ReprBodyEscapes(s: string, q: char)
    requires q == '\'' || q == '"'
    requires forall i :: 0 <= i < |s| ==> s[i] == '\'' || s[i] == '"' || ReprVerbatim(s[i])
    ensures ReprBody(s, q) == EscapeEach(s, q)
  {
    if s != [] {
      ReprBodyEscapes(s[1..], q);
    }
  }

  lemma {:induction false} ReprBodyVerbatim(s: string, q: char)
    requires q == '\'' || q == '"'
    requires forall i :: 0 <= i < |s| ==> s[i] != q && (s[i] == '\'' || s[i] == '"' || ReprVerbatim(s[i]))
    ensures ReprBody(s, q) == s
  {
    if s != [] {
      ReprBodyVerbatim(s[1..], q);
    }
  }

  // ---------------------------------------------------------------------------
  // Lines of a text file
  // ---------------------------------------------------------------------------

  predicate NoNewline(s: string) {
    '\n' !in s
  }

  lemma NoNewlineAppend(a: string, b: string)
    ensures NoNewline(a + b) <==> NoNewline(a) && NoNewline(b)
  {
    if NoNewline(a + b) {
      assert forall i :: 0 <= i < |a| ==> a[i] == (a + b)[i];
      assert forall i :: 0 <= i < |b| ==> b[i] == (a + b)[|a| + i];
    }
  }

  /** No line of `ls` holds a newline of its own. */
  predicate OneLine(ls: seq<string>) {
    forall k :: 0 <= k < |ls| ==> NoNewline(ls[k])
  }

  lemma OneLineAppend(a: seq<string>, b: seq<string>)
    requires OneLine(a) && OneLine(b)
    ensures OneLine(a + b)
  {
    forall k | 0 <= k < |a + b| ensures NoNewline((a + b)[k]) {
      if k < |a| {
        assert (a + b)[k] == a[k];
      } else {
        assert (a + b)[k] == b[k - |a|];
      }
    }
  }

  /** The text of a file whose lines are `ls`, each ended by a newline. */
  function Lines(ls: seq<string>): string {
    if ls == [] then "" else ls[0] + "\n" + Lines(ls[1..])
  }

  lemma LinesCons(l: string, rest: seq<string>)
    ensures Lines([l] + rest) == l + "\n" + Lines(rest)
  {
    assert ([l] + rest)[1..] == rest;
  }

  /** Writing one block of lines after another is writing their concatenation. */
  lemma {:induction false} LinesAppend(a: seq<string>, b: seq<string>)
    ensures Lines(a + b) == Lines(a) + Lines(b)
  {
    if a != [] {
      assert (a + b)[1..] == a[1..] + b;
      LinesAppend(a[1..], b);
    } else {
      assert a + b == b;
    }
  }

  /** Position of the first newline, or `|s|` when there is none. */
  function IndexOfNewline(s: string): (i: nat)
    ensures i <= |s|
    ensures NoNewline(s[..i])
    ensures i < |s| ==> s[i] == '\n'
  {
    if s == [] then 0
    else if s[0] == '\n' then 0
    else
      var k := IndexOfNewline(s[1..]);
      assert s[1..][..k] == s[1..k + 1];
      1 + k
  }

  /** The first newline of `s` is the one at `p` when none comes before it. */
  lemma FirstNewlineAt(s: string, p: nat)
    requires p < |s| && s[p] == '\n' && NoNewline(s[..p])
    ensures IndexOfNewline(s) == p
  {
  }

  /** Reads a text back as its lines; the last line need not end in a newline. */
  function SplitLines(s: string): seq<string>
    decreases |s|
  {
    if s == [] then []
    else
      var i := IndexOfNewline(s);
      if i == |s| then [s] else [s[..i]] + SplitLines(s[i + 1..])
  }

  /** Reading back what `Lines` wrote gives the same lines, provided no line
      itself holds a newline. */
  lemma {:induction false} SplitLinesOfLines(ls: seq<string>)
    requires OneLine(ls)
    ensures SplitLines(Lines(ls)) == ls
  {
    if ls != [] {
      var s := Lines(ls);
      var l := ls[0];
      assert s == l + "\n" + Lines(ls[1..]);
      FirstNewlineAt(s, |l|);
      assert s[..|l|] == l;
      assert s[|l| + 1..] == Lines(ls[1..]);
      SplitLinesOfLines(ls[1..]);
    }
  }
}

=== FILE: transcript.dfy ===
/** The session log store: the human-readable transcript (`output/transcript.txt`)
    and the system event log (`logs/call_log.txt`). Each operation opens one
    file, writes a block and closes it; none of them raises. A failure to open a
    file is reported as a marker string and leaves that file as it was. */
module Transcript {
  import opened Wrappers
  import opened Text
  import Json

  const TranscriptFile := "output/transcript.txt"
  const CallLogFile := "logs/call_log.txt"

  /** The contents of the two files. */
  datatype LogStore = LogStore(transcript: string, callLog: string)

  /** The message of the exception raised when opening each file, if opening
      fails (missing directory, no permission). */
  datatype Faults = Faults(transcript: Option<string>, callLog: Option<string>)

  const NoFaults := Faults(None, None)

  // ---------------------------------------------------------------------------
  // Session start
  // ---------------------------------------------------------------------------

  const TranscriptTitle := "HEBREW CALL CENTER TRANSCRIPT"
  const CallLogTitle := "CALL CENTER SYSTEM LOG"
  const InitDone := "Call session initialized successfully"
  const InitErrorPrefix := "[INIT ERROR] Error initializing call session: "

  /** The header a session start writes: title, start time, a 60-character
      rule and a blank line. */
  function HeaderLines(title: string, ts: string): seq<string> {
    [title, "Session Started: " + ts, Rule(60), ""]
  }

  /** `initialize_call_session_impl`: truncate the transcript and write its
      header, then do the same to the call log. The transcript is opened
      first, so when it cannot be opened neither file changes, and when only
      the call log cannot be opened the transcript has already been reset. */
  function InitializeSession(store: LogStore, faults: Faults, now: string): (r: (LogStore, string))
    ensures faults.transcript.Some? ==> r.0 == store
    ensures faults.transcript.None? ==> r.0.transcript == Lines(HeaderLines(TranscriptTitle, now))
    ensures faults.transcript.None? && faults.callLog.None? ==> r.0.callLog == Lines(HeaderLines(CallLogTitle, now))
    ensures faults.callLog.Some? ==> r.0.callLog == store.callLog
    ensures r.1 == InitDone <==> faults == NoFaults
    ensures r.1 != InitDone ==> StartsWith(InitErrorPrefix, r.1)
    ensures faults.transcript.Some? ==> r.1 == InitErrorPrefix + faults.transcript.value
    ensures faults.transcript.None? && faults.callLog.Some? ==> r.1 == InitErrorPrefix + faults.callLog.value
  {
    match faults.transcript
    case Some(e) => (store, InitErrorPrefix + e)
    case None =>
      var t := Lines(HeaderLines(TranscriptTitle, now));
      match faults.callLog
      case Some(e) => (store.(transcript := t), InitErrorPrefix + e)
      case None => (LogStore(t, Lines(HeaderLines(CallLogTitle, now))), InitDone)
  }

  /** A session start forgets everything written before it. */
  lemma InitializeForgetsHistory(s1: LogStore, s2: LogStore, now: string)
    ensures InitializeSession(s1, NoFaults, now).0 == InitializeSession(s2, NoFaults, now).0
  {
  }

  /** Two session starts in a row leave what the second alone leaves: only the
      headers carrying the later timestamp. */
  lemma InitializeIdempotent(store: LogStore, faults: Faults, t1: string, t2: string)
    ensures InitializeSession(InitializeSession(store, faults, t1).0, faults, t2).0
         == InitializeSession(store, faults, t2).0
  {
  }

  /** Read back line by line, a freshly started transcript holds exactly the
      three header lines and the blank line after them. */
  lemma InitializeReadsBack(store: LogStore, now: string)
    requires NoNewline(now)
    ensures SplitLines(InitializeSession(store, NoFaults, now).0.transcript) == HeaderLines(TranscriptTitle, now)
    ensures SplitLines(InitializeSession(store, NoFaults, now).0.callLog) == HeaderLines(CallLogTitle, now)
  {
    HeaderOneLine(TranscriptTitle, now);
    HeaderOneLine(CallLogTitle, now);
    SplitLinesOfLines(HeaderLines(TranscriptTitle, now));
    SplitLinesOfLines(HeaderLines(CallLogTitle, now));
  }

  lemma HeaderOneLine(title: string, ts: string)
    requires NoNewline(title) && NoNewline(ts)
    ensures OneLine(HeaderLines(title, ts))
  {
  }

  // ---------------------------------------------------------------------------
  // One conversation step
  // ---------------------------------------------------------------------------

  /** The fields of one logged conversation step. */
  datatype StepRecord = StepRecord(
    step: int, speaker: string, original: string, nikud: string, audioFile: string, transcribed: string)

  const TranscriptErrorPrefix := "[TRANSCRIPT ERROR] Error logging transcript: "

  /** The block `log_conversation_step_impl` appends: a blank line, the step
      banner, the six labelled fields in order and a 50-character rule. */
  function StepLines(e: StepRecord, ts: string): seq<string> {
    [ "",
      "=== CONVERSATION STEP " + IntToString(e.step) + " ===",
      "Timestamp: " + ts,
      "Speaker: " + e.speaker,
      "Original Text: " + e.original,
      "Nikud Text: " + e.nikud,
      "Audio File: " + e.audioFile,
      "Transcribed Text: " + e.transcribed,
      Rule(50) ]
  }

  /** `log_conversation_step_impl`: append one step block to the transcript,
      stamped with the supplied timestamp or, when there is none, the current
      time. The call log is never touched. */
  function LogConversationStep(store: LogStore, faults: Faults, e: StepRecord, timestamp: Option<string>, now: string)
    : (r: (LogStore, string))
    ensures r.0.callLog == store.callLog
    ensures faults.transcript.None? ==>
      && r.0.transcript == store.transcript + Lines(StepLines(e, timestamp.GetOr(now)))
      && r.1 == "Successfully logged step " + IntToString(e.step)
    ensures faults.transcript.Some? ==> r.0 == store && r.1 == TranscriptErrorPrefix + faults.transcript.value
  {
    var ts := if timestamp.None? then now else timestamp.value;
    match faults.transcript
    case Some(err) => (store, TranscriptErrorPrefix + err)
    case None =>
      (store.(transcript := store.transcript + Lines(StepLines(e, ts))), "Successfully logged step " + IntToString(e.step))
  }

  // ----- reading a step block back -----

  /** The rest of `line` after `tag`, if it starts with it. */
  function Field(tag: string, line: string): Option<string> {
    if StartsWith(tag, line) then Some(line[|tag|..]) else None
  }

  lemma FieldOf(tag: string, v: string)
    ensures Field(tag, tag + v) == Some(v)
  {
    assert (tag + v)[..|tag|] == tag;
    assert (tag + v)[|tag|..] == v;
  }

  const StepBannerHead := "=== CONVERSATION STEP "
  const StepBannerTail := " ==="

  function StepNumberOf(line: string): Option<int> {
    if |line| >= |StepBannerHead| + |StepBannerTail| && StartsWith(StepBannerHead, line)
       && line[|line| - |StepBannerTail|..] == StepBannerTail
    then ParseInt(line[|StepBannerHead|..|line| - |StepBannerTail|])
    else None
  }

  /** Recovers the step and its timestamp from the lines of one step block. */
  function ReadStep(ls: seq<string>): Option<(StepRecord, string)> {
    if |ls| != 9 || ls[0] != "" || ls[8] != Rule(50) then None
    else
      var n := StepNumberOf(ls[1]);
      var ts := Field("Timestamp: ", ls[2]);
      var sp := Field("Speaker: ", ls[3]);
      var o := Field("Original Text: ", ls[4]);
      var k := Field("Nikud Text: ", ls[5]);
      var a := Field("Audio File: ", ls[6]);
      var t := Field("Transcribed Text: ", ls[7]);
      if n.Some? && ts.Some? && sp.Some? && o.Some? && k.Some? && a.Some? && t.Some? then
        Some((StepRecord(n.value, sp.value, o.value, k.value, a.value, t.value), ts.value))
      else None
  }

  predicate OneLineRecord(e: StepRecord) {
    NoNewline(e.speaker) && NoNewline(e.original) && NoNewline(e.nikud)
    && NoNewline(e.audioFile) && NoNewline(e.transcribed)
  }

  /** No line of a step block spans two lines when its texts do not. */
  lemma StepLinesOneLine(e: StepRecord, ts: string)
    requires OneLineRecord(e) && NoNewline(ts)
    ensures OneLine(StepLines(e, ts))
  {
    var n := IntToString(e.step);
    assert NoNewline(n);
    StepLabelsNoNewline();
    NoNewlineAppend(StepBannerHead, n);
    NoNewlineAppend(StepBannerHead + n, StepBannerTail);
    NoNewlineAppend("Timestamp: ", ts);
    NoNewlineAppend("Speaker: ", e.speaker);
    NoNewlineAppend("Original Text: ", e.original);
    NoNewlineAppend("Nikud Text: ", e.nikud);
    NoNewlineAppend("Audio File: ", e.audioFile);
    NoNewlineAppend("Transcribed Text: ", e.transcribed);
  }

  /** The fixed labels of a step block hold no newline. */
  lemma StepLabelsNoNewline()
    ensures NoNewline(StepBannerHead) && NoNewline(StepBannerTail)
    ensures NoNewline("Timestamp: ") && NoNewline("Speaker: ") && NoNewline("Original Text: ")
    ensures NoNewline("Nikud Text: ") && NoNewline("Audio File: ") && NoNewline("Transcribed Text: ")
  {
    StepHeadLabelsNoNewline();
    StepTextLabelsNoNewline();
  }

  /** The banner, timestamp and speaker labels hold no newline. */
  lemma StepHeadLabelsNoNewline()
    ensures NoNewline(StepBannerHead) && NoNewline(StepBannerTail)
    ensures NoNewline("Timestamp: ") && NoNewline("Speaker: ")
  {
  }

  /** The four text labels hold no newline. */
  lemma StepTextLabelsNoNewline()
    ensures NoNewline("Original Text: ") && NoNewline("Nikud Text: ")
    ensures NoNewline("Audio File: ") && NoNewline("Transcribed Text: ")
  {
  }

  lemma ReadStepLines(e: StepRecord, ts: string)
    ensures ReadStep(StepLines(e, ts)) == Some((e, ts))
  {
    var n := IntToString(e.step);
    var banner := StepBannerHead + n + StepBannerTail;
    assert banner[|StepBannerHead|..|banner| - |StepBannerTail|] == n;
    assert banner[..|StepBannerHead|] == StepBannerHead;
    assert banner[|banner| - |StepBannerTail|..] == StepBannerTail;
    ParseIntToString(e.step);
    assert StepNumberOf(banner) == Some(e.step);
    FieldOf("Timestamp: ", ts);
    FieldOf("Speaker: ", e.speaker);
    FieldOf("Original Text: ", e.original);
    FieldOf("Nikud Text: ", e.nikud);
    FieldOf("Audio File: ", e.audioFile);
    FieldOf("Transcribed Text: ", e.transcribed);
  }

  /** The transcript keeps every field of a step: reading the appended block
      back line by line recovers the step number, the timestamp and all five
      texts, as long as none of them spans several lines. */
  lemma StepReadsBack(e: StepRecord, ts: string)
    requires OneLineRecord(e) && NoNewline(ts)
    ensures ReadStep(SplitLines(Lines(StepLines(e, ts)))) == Some((e, ts))
  {
    StepLinesOneLine(e, ts);
    SplitLinesOfLines(StepLines(e, ts));
    ReadStepLines(e, ts);
  }

  // ---------------------------------------------------------------------------
  // Call summary
  // ---------------------------------------------------------------------------

  const SummaryDone := "Call summary created successfully"
  const SummaryErrorPrefix := "[SUMMARY ERROR] Error creating call summary: "

  /** The fields of a call summary. */
  datatype Summary = Summary(
    totalSteps: int, outcome: string, satisfaction: string, resolved: bool, notes: string)

  function YesNo(b: bool): string {
    if b then "Yes" else "No"
  }

  /** The block `create_call_summary_impl` appends: a banner, the labelled
      fields, and a footer naming the generated files. */
  function SummaryLines(s: Summary, ts: string): seq<string> {
    SummaryBanner() + SummaryFields(s, ts) + SummaryFooter()
  }

  function SummaryBanner(): seq<string> {
    ["", Rule(60), "CALL SUMMARY", Rule(60)]
  }

  function SummaryFields(s: Summary, ts: string): seq<string> {
    [ "Call Date: " + ts,
      "Total Conversation Steps: " + IntToString(s.totalSteps),
      "Call Outcome: " + s.outcome,
      "Customer Satisfaction: " + s.satisfaction,
      "Issues Resolved: " + YesNo(s.resolved),
      "",
      "Additional Notes: " + s.notes ]
  }

  function SummaryFooter(): seq<string> {
    [ "",
      "Generated Files:",
      "- Transcript: " + TranscriptFile,
      "- Audio Files: output/audio_step_*.wav",
      "- Call Log: " + CallLogFile,
      "",
      Rule(60) ]
  }

  /** `create_call_summary_impl`: append the summary block, stamped with the
      current time, to the transcript only. */
  function CreateCallSummary(store: LogStore, faults: Faults, s: Summary, now: string): (r: (LogStore, string))
    ensures r.0.callLog == store.callLog
    ensures faults.transcript.None? ==>
      r.0.transcript == store.transcript + Lines(SummaryLines(s, now)) && r.1 == SummaryDone
    ensures faults.transcript.Some? ==> r.0 == store && r.1 == SummaryErrorPrefix + faults.transcript.value
  {
    match faults.transcript
    case Some(err) => (store, SummaryErrorPrefix + err)
    case None => (store.(transcript := store.transcript + Lines(SummaryLines(s, now))), SummaryDone)
  }

  /** Recovers the summary and its date from the lines of one summary block. */
  function ReadSummary(ls: seq<string>): Option<(Summary, string)> {
    if |ls| != 18 || ls[..4] != SummaryBanner() || ls[11..] != SummaryFooter() then None
    else ReadSummaryFields(ls[4..11])
  }

  function ReadSummaryFields(ls: seq<string>): Option<(Summary, string)>
    requires |ls| == 7
  {
    var ts := Field("Call Date: ", ls[0]);
    var n := Field("Total Conversation Steps: ", ls[1]);
    var o := Field("Call Outcome: ", ls[2]);
    var c := Field("Customer Satisfaction: ", ls[3]);
    var y := Field("Issues Resolved: ", ls[4]);
    var notes := Field("Additional Notes: ", ls[6]);
    if ts.Some? && n.Some? && ParseInt(n.value).Some? && o.Some? && c.Some?
       && y.Some? && y.value in {"Yes", "No"} && ls[5] == "" && notes.Some?
    then Some((Summary(ParseInt(n.value).value, o.value, c.value, y.value == "Yes", notes.value), ts.value))
    else None
  }

  lemma ReadSummaryLines(s: Summary, ts: string)
    ensures ReadSummary(SummaryLines(s, ts)) == Some((s, ts))
  {
    var ls := SummaryLines(s, ts);
    assert ls[..4] == SummaryBanner();
    assert ls[4..11] == SummaryFields(s, ts);
    assert ls[11..] == SummaryFooter();
    ParseIntToString(s.totalSteps);
    FieldOf("Call Date: ", ts);
    FieldOf("Total Conversation Steps: ", IntToString(s.totalSteps));
    FieldOf("Call Outcome: ", s.outcome);
    FieldOf("Customer Satisfaction: ", s.satisfaction);
    FieldOf("Issues Resolved: ", YesNo(s.resolved));
    FieldOf("Additional Notes: ", s.notes);
  }

  lemma SummaryFieldsOneLine(s: Summary, ts: string)
    requires NoNewline(s.outcome) && NoNewline(s.satisfaction) && NoNewline(s.notes) && NoNewline(ts)
    ensures OneLine(SummaryFields(s, ts))
  {
    var n := IntToString(s.totalSteps);
    assert NoNewline(n);
    SummaryHeadLabelsNoNewline();
    SummaryTailLabelsNoNewline();
    NoNewlineAppend("Call Date: ", ts);
    NoNewlineAppend("Total Conversation Steps: ", n);
    NoNewlineAppend("Call Outcome: ", s.outcome);
    NoNewlineAppend("Customer Satisfaction: ", s.satisfaction);
    NoNewlineAppend("Issues Resolved: ", YesNo(s.resolved));
    NoNewlineAppend("Additional Notes: ", s.notes);
  }

  /** The date, step-count and outcome labels hold no newline. */
  lemma SummaryHeadLabelsNoNewline()
    ensures NoNewline("Call Date: ") && NoNewline("Total Conversation Steps: ") && NoNewline("Call Outcome: ")
  {
  }

  /** The satisfaction, resolution and notes labels, and both Yes/No values, hold no newline. */
  lemma SummaryTailLabelsNoNewline()
    ensures NoNewline("Customer Satisfaction: ") && NoNewline("Issues Resolved: ") && NoNewline("Additional Notes: ")
    ensures NoNewline(YesNo(true)) && NoNewline(YesNo(false))
  {
  }

  lemma SummaryFrameOneLine()
    ensures OneLine(SummaryBanner())
    ensures OneLine(SummaryFooter())
  {
    FooterTranscriptLinesNoNewline();
    FooterAudioAndLogLinesNoNewline();
  }

  /** The footer heading and its transcript line hold no newline. */
  lemma FooterTranscriptLinesNoNewline()
    ensures NoNewline("Generated Files:") && NoNewline("- Transcript: " + TranscriptFile)
  {
  }

  /** The footer's audio and call-log lines hold no newline. */
  lemma FooterAudioAndLogLinesNoNewline()
    ensures NoNewline("- Audio Files: output/audio_step_*.wav") && NoNewline("- Call Log: " + CallLogFile)
  {
  }

  lemma SummaryLinesOneLine(s: Summary, ts: string)
    requires NoNewline(s.outcome) && NoNewline(s.satisfaction) && NoNewline(s.notes) && NoNewline(ts)
    ensures OneLine(SummaryLines(s, ts))
  {
    SummaryFieldsOneLine(s, ts);
    SummaryFrameOneLine();
    OneLineAppend(SummaryBanner(), SummaryFields(s, ts));
    OneLineAppend(SummaryBanner() + SummaryFields(s, ts), SummaryFooter());
  }

  /** The transcript keeps every field of the summary; in particular the
      "Issues Resolved" line says "Yes" exactly when the issues were resolved. */
  lemma SummaryReadsBack(s: Summary, ts: string)
    requires NoNewline(s.outcome) && NoNewline(s.satisfaction) && NoNewline(s.notes) && NoNewline(ts)
    ensures ReadSummary(SplitLines(Lines(SummaryLines(s, ts)))) == Some((s, ts))
  {
    SummaryLinesOneLine(s, ts);
    SplitLinesOfLines(SummaryLines(s, ts));
    ReadSummaryLines(s, ts);
  }

  // ---------------------------------------------------------------------------
  // System events
  // ---------------------------------------------------------------------------

  const EventDone := "System event logged successfully"
  const EventErrorPrefix := "[SYSTEM LOG ERROR] "

  /** Python truthiness of the optional `data` dictionary: `None` and `{}` are false. */
  predicate HasData(data: Option<Json.Object>) {
    data.Some? && data.value != []
  }

  /** The text one event adds to the call log. */
  function EventText(ts: string, eventType: string, message: string, data: Option<Json.Object>): string {
    "[" + ts + "] " + eventType + ": " + message + "\n"
    + (if HasData(data) then "Data: " + Json.Dumps(data.value) + "\n" else "")
    + "\n"
  }

  /** `log_system_event_impl`: append one timestamped event to the call log
      only; the transcript is never touched. */
  function LogSystemEvent(store: LogStore, faults: Faults, eventType: string, message: string,
                          data: Option<Json.Object>, now: string): (r: (LogStore, string))
    ensures r.0.transcript == store.transcript
    ensures faults.callLog.None? ==>
      r.0.callLog == store.callLog + EventText(now, eventType, message, data) && r.1 == EventDone
    ensures faults.callLog.Some? ==> r.0 == store && r.1 == EventErrorPrefix + faults.callLog.value
  {
    match faults.callLog
    case Some(err) => (store, EventErrorPrefix + err)
    case None => (store.(callLog := store.callLog + EventText(now, eventType, message, data)), EventDone)
  }

  /** The lines of one event: its heading, the `Data:` lines only when the
      data dictionary is non-empty, then one blank line. */
  function EventLines(ts: string, eventType: string, message: string, data: Option<Json.Object>): seq<string> {
    ["[" + ts + "] " + eventType + ": " + message] + DataLines(data) + [""]
  }

  function DataLines(data: Option<Json.Object>): seq<string> {
    if HasData(data) then ["Data: {"] + Json.ItemLines(data.value) + ["}"] else []
  }

  lemma DataLinesText(data: Option<Json.Object>)
    ensures Lines(DataLines(data)) == if HasData(data) then "Data: " + Json.Dumps(data.value) + "\n" else ""
  {
    if HasData(data) {
      var d := data.value;
      var rest := Json.ItemLines(d) + ["}"];
      assert DataLines(data) == ["Data: {"] + rest;
      assert Json.DumpLines(d) == ["{"] + rest;
      LinesCons("Data: {", rest);
      LinesCons("{", rest);
      DataLabelJoinsBrace(Lines(rest));
    }
  }

  /** The `Data: ` label followed by a JSON text starting with `{` and a
      newline is the `Data: {` line followed by the rest. */
  lemma DataLabelJoinsBrace(x: string)
    ensures "Data: " + ("{" + "\n" + x) == "Data: {" + "\n" + x
  {
    assert "Data: " + "{" == "Data: {";
  }

  lemma EventTextIsLines(ts: string, eventType: string, message: string, data: Option<Json.Object>)
    ensures EventText(ts, eventType, message, data) == Lines(EventLines(ts, eventType, message, data))
  {
    var head := "[" + ts + "] " + eventType + ": " + message;
    var mid := DataLines(data);
    assert EventLines(ts, eventType, message, data) == [head] + mid + [""];
    DataLinesText(data);
    LinesAppend([head] + mid, [""]);
    LinesAppend([head], mid);
    LinesCons(head, []);
    LinesCons("", []);
  }

  lemma EventLinesOneLine(ts: string, eventType: string, message: string, data: Option<Json.Object>)
    requires NoNewline(ts) && NoNewline(eventType) && NoNewline(message)
    ensures OneLine(EventLines(ts, eventType, message, data))
  {
    var head := "[" + ts + "] " + eventType + ": " + message;
    var mid := DataLines(data);
    assert NoNewline(head);
    if HasData(data) {
      OneLineAppend(["Data: {"], Json.ItemLines(data.value));
      OneLineAppend(["Data: {"] + Json.ItemLines(data.value), ["}"]);
    }
    OneLineAppend([head], mid);
    OneLineAppend([head] + mid, [""]);
  }

  /** Line by line, the call log gains exactly the event's lines: the `Data:`
      lines appear only when the data dictionary is non-empty. */
  lemma EventReadsBack(ts: string, eventType: string, message: string, data: Option<Json.Object>)
    requires NoNewline(ts) && NoNewline(eventType) && NoNewline(message)
    ensures SplitLines(EventText(ts, eventType, message, data)) == EventLines(ts, eventType, message, data)
  {
    EventTextIsLines(ts, eventType, message, data);
    EventLinesOneLine(ts, eventType, message, data);
    SplitLinesOfLines(EventLines(ts, eventType, message, data));
  }
}

=== FILE: tts.dfy ===
/** The speech-synthesis stage (`tools/tts_tool.py`). It always returns a
    string: the WAV file when an MP3 could be synthesised and converted, the
    MP3 when only synthesis worked, a one-second silent WAV when synthesis
    failed, and a marker string only when even the silent WAV could not be
    written. */
module Tts {
  import opened Wrappers
  import opened Text

  const OutputDir := "output"
  const FallbackErrorPrefix := "[FALLBACK TTS ERROR] "

  /** `os.path.join(OUTPUT_DIR, name)` on a POSIX system. */
  function InOutput(name: string): string {
    OutputDir + "/" + name
  }

  predicate IsHexDigit(c: char) {
    ('0' <= c <= '9') || ('a' <= c <= 'f')
  }

  /** `uuid.uuid4().hex`: 32 lower-case hexadecimal digits. */
  type UuidHex = s: string | |s| == 32 && forall i :: 0 <= i < |s| ==> IsHexDigit(s[i])
    witness "00000000000000000000000000000000"

  /** The identifiers `uuid4()` would draw in one call: one for the primary
      file names and one for the silent fallback. They are only used when the
      step number is falsy. */
  datatype Ids = Ids(primary: UuidHex, fallback: UuidHex)

  /** Python truthiness of the optional step number: `None` and `0` are false. */
  predicate HasStep(step: Option<int>) {
    step.Some? && step.value != 0
  }

  function PrimaryBase(step: Option<int>, ids: Ids): string {
    if HasStep(step) then "audio_step_" + IntToString(step.value) else "tts_" + ids.primary
  }

  function Mp3Path(step: Option<int>, ids: Ids): string {
    InOutput(PrimaryBase(step, ids) + ".mp3")
  }

  function WavPath(step: Option<int>, ids: Ids): string {
    InOutput(PrimaryBase(step, ids) + ".wav")
  }

  function FallbackPath(step: Option<int>, ids: Ids): string {
    if HasStep(step) then InOutput("audio_step_" + IntToString(step.value) + "_fallback.wav")
    else InOutput("tts_silent_" + ids.fallback + ".wav")
  }

  // ---------------------------------------------------------------------------
  // The silent fallback audio
  // ---------------------------------------------------------------------------

  newtype byte = x: int | 0 <= x < 256

  /** The parameters and sample data handed to the `wave` writer (the RIFF
      header bytes the library adds are not modelled). */
  datatype WavSpec = WavSpec(channels: nat, sampleWidth: nat, frameRate: nat, frames: seq<byte>)

  const SampleRate := 16000
  const DurationSeconds := 1

  predicate IsInt16(s: int) {
    -32768 <= s < 32768
  }

  /** `struct.pack('<h', s)`: a signed 16-bit sample, little-endian, two's complement. */
  function PackInt16(s: int): (b: seq<byte>)
    requires IsInt16(s)
    ensures |b| == 2
  {
    var u := if s < 0 then s + 65536 else s;
    [(u % 256) as byte, (u / 256) as byte]
  }

  /** `struct.unpack('<h', b)`. */
  function UnpackInt16(lo: byte, hi: byte): int {
    var u := (hi as int) * 256 + (lo as int);
    if u >= 32768 then u - 65536 else u
  }

  /** `b''.join(struct.pack('<h', s) for s in samples)`. */
  function PackSamples(samples: seq<int>): (r: seq<byte>)
    requires forall i :: 0 <= i < |samples| ==> IsInt16(samples[i])
    ensures |r| == 2 * |samples|
  {
    if samples == [] then [] else PackInt16(samples[0]) + PackSamples(samples[1..])
  }

  /** Reads little-endian 16-bit samples back from frame bytes. */
  function UnpackSamples(frames: seq<byte>): seq<int>
    decreases |frames|
  {
    if |frames| < 2 then [] else [UnpackInt16(frames[0], frames[1])] + UnpackSamples(frames[2..])
  }

  /** The frame bytes decode to exactly the samples that were packed. */
  lemma {:induction false} UnpackPackSamples(samples: seq<int>)
    requires forall i :: 0 <= i < |samples| ==> IsInt16(samples[i])
    ensures UnpackSamples(PackSamples(samples)) == samples
  {
    if samples != [] {
      var b := PackSamples(samples);
      assert b[2..] == PackSamples(samples[1..]);
      UnpackPackSamples(samples[1..]);
    }
  }

  /** Packing silence gives only zero bytes. */
  lemma {:induction false} PackSilence(n: nat)
    ensures PackSamples(seq(n, _ => 0)) == seq(2 * n, _ => 0 as byte)
  {
    if n > 0 {
      assert seq(n, _ => 0)[1..] == seq(n - 1, _ => 0);
      PackSilence(n - 1);
      assert seq(2 * n, _ => 0 as byte) == [0 as byte, 0 as byte] + seq(2 * (n - 1), _ => 0 as byte);
    }
  }

  /** The silent audio `_fallback_tts` writes. */
  function SilentWav(): WavSpec {
    var numSamples := SampleRate * DurationSeconds;
    WavSpec(1, 2, SampleRate, PackSamples(seq(numSamples, _ => 0)))
  }

  /** The fallback audio is mono 16-bit 16 kHz PCM, exactly one second long
      (16000 frames of two bytes), and every sample is silence. */
  lemma SilentWavIsOneSecondOfSilence()
    ensures SilentWav().channels == 1 && SilentWav().sampleWidth == 2 && SilentWav().frameRate == 16000
    ensures |SilentWav().frames| == 32000
    ensures |SilentWav().frames| / (SilentWav().channels * SilentWav().sampleWidth) == SilentWav().frameRate
    ensures forall i :: 0 <= i < |SilentWav().frames| ==> SilentWav().frames[i] == 0
    ensures UnpackSamples(SilentWav().frames) == seq(16000, _ => 0)
  {
    PackSilence(16000);
    UnpackPackSamples(seq(16000, _ => 0));
  }

  // ---------------------------------------------------------------------------
  // The stage
  // ---------------------------------------------------------------------------

  /** What the synthesiser finds around it. */
  datatype TtsEnv = TtsEnv(
    /** `gTTS(text=text, lang='iw').save(mp3_path)` */
    synthesize: (string, string) -> Outcome<()>,
    /** `AudioSegment.from_file(mp3_path).export(wav_path, format="wav")` */
    convert: (string, string) -> Outcome<()>,
    /** opening `path` with the `wave` module and writing the given audio */
    writeWav: (string, WavSpec) -> Outcome<()>)

  /** `_fallback_tts`: write the silent WAV and return its path, or a marker
      carrying the exception's message when writing fails. */
  function FallbackTts(env: TtsEnv, text: string, step: Option<int>, ids: Ids): (r: string)
    ensures env.writeWav(FallbackPath(step, ids), SilentWav()).Ok? ==> r == FallbackPath(step, ids)
    ensures env.writeWav(FallbackPath(step, ids), SilentWav()).Raised? ==>
      r == FallbackErrorPrefix + env.writeWav(FallbackPath(step, ids), SilentWav()).exn.msg
  {
    var filename := FallbackPath(step, ids);
    match env.writeWav(filename, SilentWav())
    case Ok(_) => filename
    case Raised(e) => FallbackErrorPrefix + e.msg
  }

  /** `convert_hebrew_text_to_speech_impl`. `ffmpegOnPath` is
      `shutil.which("ffmpeg") is not None`. */
  function Convert(env: TtsEnv, ffmpegOnPath: bool, text: string, step: Option<int>, ids: Ids): (r: string)
    ensures (env.synthesize(text, Mp3Path(step, ids)).Ok? && ffmpegOnPath
             && env.convert(Mp3Path(step, ids), WavPath(step, ids)).Ok?) ==> r == WavPath(step, ids)
    ensures (env.synthesize(text, Mp3Path(step, ids)).Ok?
             && !(ffmpegOnPath && env.convert(Mp3Path(step, ids), WavPath(step, ids)).Ok?)) ==> r == Mp3Path(step, ids)
    ensures env.synthesize(text, Mp3Path(step, ids)).Raised? ==> r == FallbackTts(env, text, step, ids)
  {
    var mp3 := Mp3Path(step, ids);
    var wav := WavPath(step, ids);
    match env.synthesize(text, mp3)
    case Raised(_) => FallbackTts(env, text, step, ids)
    case Ok(_) =>
      if ffmpegOnPath && env.convert(mp3, wav).Ok? then wav else mp3
  }

  /** The returned path tells the caller exactly how far the pipeline got:
      the WAV iff synthesis and conversion both succeeded, the MP3 iff only
      synthesis did, and something else (the silent WAV or a marker) iff
      synthesis failed. */
  lemma ConvertResultTellsOutcome(env: TtsEnv, ffmpegOnPath: bool, text: string, step: Option<int>, ids: Ids)
    ensures Convert(env, ffmpegOnPath, text, step, ids) == WavPath(step, ids) <==>
      env.synthesize(text, Mp3Path(step, ids)).Ok? && ffmpegOnPath
      && env.convert(Mp3Path(step, ids), WavPath(step, ids)).Ok?
    ensures Convert(env, ffmpegOnPath, text, step, ids) == Mp3Path(step, ids) <==>
      env.synthesize(text, Mp3Path(step, ids)).Ok?
      && !(ffmpegOnPath && env.convert(Mp3Path(step, ids), WavPath(step, ids)).Ok?)
  {
    PathsDistinct(step, ids);
    var r := Convert(env, ffmpegOnPath, text, step, ids);
    if env.synthesize(text, Mp3Path(step, ids)).Raised? {
      var w := env.writeWav(FallbackPath(step, ids), SilentWav());
      assert r == FallbackPath(step, ids) || r == FallbackErrorPrefix + w.exn.msg;
    }
  }

  /** The four strings one call can return are pairwise distinct, so the
      result tells which branch was taken. */
  lemma PathsDistinct(step: Option<int>, ids: Ids)
    ensures WavPath(step, ids) != Mp3Path(step, ids)
    ensures FallbackPath(step, ids) != WavPath(step, ids)
    ensures FallbackPath(step, ids) != Mp3Path(step, ids)
    ensures forall m :: FallbackErrorPrefix + m != WavPath(step, ids)
    ensures forall m :: FallbackErrorPrefix + m != Mp3Path(step, ids)
    ensures forall m :: FallbackErrorPrefix + m != FallbackPath(step, ids)
  {
    var w, m3, f := WavPath(step, ids), Mp3Path(step, ids), FallbackPath(step, ids);
    assert w[|w| - 1] != m3[|m3| - 1];
    if HasStep(step) {
      var n := IntToString(step.value);
      // five characters from the end: a digit of the step number versus the 'k' of "_fallback"
      assert w[|w| - 5] == n[|n| - 1];
      assert m3[|m3| - 5] == n[|n| - 1];
      assert f[|f| - 5] == 'k';
    } else {
      // right after "output/tts_": a hexadecimal digit versus the 's' of "silent"
      assert w[11] == ids.primary[0];
      assert m3[11] == ids.primary[0];
      assert f[11] == 's';
    }
    forall m: string ensures FallbackErrorPrefix + m != w && FallbackErrorPrefix + m != m3
                        && FallbackErrorPrefix + m != f {
      assert (FallbackErrorPrefix + m)[0] == '[';
    }
  }

  /** Distinct steps never write to the same file, so one turn's audio never
      overwrites another's. */
  lemma StepPathsDistinct(m: int, n: int, ids1: Ids, ids2: Ids)
    requires m != 0 && n != 0 && m != n
    ensures WavPath(Some(m), ids1) != WavPath(Some(n), ids2)
    ensures Mp3Path(Some(m), ids1) != Mp3Path(Some(n), ids2)
    ensures FallbackPath(Some(m), ids1) != FallbackPath(Some(n), ids2)
    ensures WavPath(Some(m), ids1) != FallbackPath(Some(n), ids2)
  {
    NumberedPaths(m, ids1);
    NumberedPaths(n, ids2);
    NumberedNamesDistinct(StepHead, ".wav", m, n);
    NumberedNamesDistinct(StepHead, ".mp3", m, n);
    NumberedNamesDistinct(StepHead, "_fallback.wav", m, n);
    WavIsNotFallback(m, n);
  }

  /** A converted file never takes the name of a silent fallback: five
      characters from the end one has a digit, the other the `k` of
      `_fallback`. */
  lemma WavIsNotFallback(m: int, n: int)
    ensures StepHead + IntToString(m) + ".wav" != StepHead + IntToString(n) + "_fallback.wav"
  {
    var sm := IntToString(m);
    var w, f := StepHead + sm + ".wav", StepHead + IntToString(n) + "_fallback.wav";
    assert w[|w| - 5] == sm[|sm| - 1];
    assert f[|f| - 5] == 'k';
  }

  const StepHead := "output/audio_step_"

  /** The three file names of a numbered step. */
  lemma NumberedPaths(n: int, ids: Ids)
    requires n != 0
    ensures WavPath(Some(n), ids) == StepHead + IntToString(n) + ".wav"
    ensures Mp3Path(Some(n), ids) == StepHead + IntToString(n) + ".mp3"
    ensures FallbackPath(Some(n), ids) == StepHead + IntToString(n) + "_fallback.wav"
  {
    var d := IntToString(n);
    InOutputNumbered(d, ".wav");
    InOutputNumbered(d, ".mp3");
    InOutputNumbered(d, "_fallback.wav");
  }

  lemma InOutputNumbered(d: string, tail: string)
    ensures InOutput("audio_step_" + d + tail) == StepHead + d + tail
  {
    assert OutputDir + "/" == "output/";
    assert "output/" + "audio_step_" == StepHead;
  }

  /** Two names that differ only in the number between a common head and a
      common tail differ when the numbers do. */
  lemma NumberedNamesDistinct(head: string, tail: string, m: int, n: int)
    requires m != n
    ensures head + IntToString(m) + tail != head + IntToString(n) + tail
  {
    var sm, sn := IntToString(m), IntToString(n);
    if head + sm + tail == head + sn + tail {
      assert |sm| == |sn|;
      assert (head + sm + tail)[|head|..|head| + |sm|] == sm;
      assert (head + sn + tail)[|head|..|head| + |sn|] == sn;
      IntToStringInjective(m, n);
    }
  }

  /** `convert_multiple_texts_to_speech`: one result per (text, step) pair, in
      order; `draw(i)` are the identifiers drawn for the i-th call. */
  method ConvertMany(env: TtsEnv, ffmpegOnPath: bool, items: seq<(string, Option<int>)>, draw: nat -> Ids)
    returns (results: seq<string>)
    ensures |results| == |items|
    ensures forall i :: 0 <= i < |items| ==>
      results[i] == Convert(env, ffmpegOnPath, items[i].0, items[i].1, draw(i))
  {
    results := [];
    var i := 0;
    while i < |items|
      invariant 0 <= i <= |items|
      invariant |results| == i
      invariant forall j :: 0 <= j < i ==> results[j] == Convert(env, ffmpegOnPath, items[j].0, items[j].1, draw(j))
    {
      var (text, step) := items[i];
      results := results + [Convert(env, ffmpegOnPath, text, step, draw(i))];
      i := i + 1;
    }
  }
}

=== FILE: wrappers.dfy ===
/** Optional values, Python exceptions and the outcome of a call into code the
    model cannot see (a model library, the file system, a codec). */
module Wrappers {

  /** A value that may be absent: Python's `None` versus a present value. */
  datatype Option<+T> = None | Some(value: T) {

    /** The present value, or `default` when absent (Python's `x if x is not None else default`). */
    function GetOr(default: T): T {
      match this
      case Some(v) => v
      case None => default
    }
  }

  /** The classes of exception the source distinguishes in its `except`
      clauses, and the ones Python's `dict()` raises on what is not a mapping. */
  datatype ExnKind = ImportError | KeyError | TypeError | ValueError | OtherError

  /** A raised exception: its class and `str(e)`. */
  datatype Exn = Exn(kind: ExnKind, msg: string)

  /** What a call into an external collaborator did: returned a value or raised. */
  datatype Outcome<+T> = Ok(value: T) | Raised(exn: Exn)
}
